=== FILE: README.md ===
# Unified-library bundler and benchmark filters, modelled in Dafny

This project models three small Python tools from a benchmarking repository.

- **The library bundler** `bench_utils/build_unified_libs.py`. It first
  deletes and recreates a destination directory. It then scans a source
  directory for versioned shared libraries (`*.so.*`) and executables. It
  runs `ldd` on each one to find the libraries they load, optionally
  keeping only `ldd` lines that contain a filter substring. It hands
  those libraries to `get_all_deps`, which is meant to follow them
  recursively, and copies the set `get_all_deps` returns into the
  destination; as the Findings below show, that set can miss
  dependencies, or `get_all_deps` can return nothing at all. Next to
  each copy it places a symbolic link with the short name `stem.so`,
  where `stem` is the file name up to its first dot.
- **The STREAM filter** `stream/filter.py`. It turns STREAM output into
  `Ncores,MB/sec` CSV rows. Each row pairs a thread count with the Triad
  bandwidth that follows it.
- **The model benchmark's timing filter** `model_bench/filter.py`. It turns
  GNU `time` output into `NCORES,time` rows. Each row holds a run number and
  the wall-clock time of that run.

Modules:

- `Wrappers`: `Option`.
- `PyText`: Python's `str.split()`, `str.find`, and `split(sep)[0]`.
- `PyInt`: Python's `int()` and `str()` on integers.
- `Csv`: the `'%s,%s'` rows that both filters print.
- `Ldd`: `ldd_get_dep_lib`.
- `Closure`: `get_all_deps`, as written and as intended.
- `Materialize`: the copy loop and `create_symlink`.
- `Bundler`: the whole `__main__` run of the bundler.
- `Scenarios`: concrete and generic runs that separate the two closures.
- `StreamFilter`: `stream/filter.py`.
- `ElapsedFilter`: `model_bench/filter.py`.

The operating system is a parameter.

- A `Host` gives three things: the lines `ldd` prints for a path, the set of
  existing regular files, and the order in which Python iterates a set. That
  order may be any order that lists each member exactly once (`ValidOrder`).
- A `Machine` adds four things: the paths that exist, what `glob` and
  `list_executables` return, which copies raise, and how deep the
  recursion may nest before `RecursionError`.
- The destination directory is a map from names to entries. An entry is a
  copied file or a symbolic link to another name.

`Bundler.Run` takes a `Strategy`. `AsWritten` runs the recursive
`get_all_deps` exactly as the code does. `VisitedSet` uses the complete
dependency closure that the function's doc comment promises
(`Closure.DepsClosure`). The rest of the run is shared.

Three behaviours of the bundler are easy to miss; the model has them as
the code does:

- A wrong argument count prints the usage text and exits 0.
- When the source directory has no candidate files, the destination
  directory has already been deleted and recreated before the script exits 1.
- The exit status of `ldd` is never checked. A failing `ldd` contributes
  whatever lines it printed.

## Model

| member | source | states |
|---|---|---|
| Ldd.DepOfLine | bench_utils/build_unified_libs.py:47-55 | a line contributes only an existing file that is one whitespace-free field, and under a non-empty filter only from a line containing the filter |
| Ldd.DepOfLineIff | bench_utils/build_unified_libs.py:48-55 | a line contributes `p` if and only if it passes the filter, has at least three fields, its third field is `p`, and `p` is a file |
| Ldd.DepOfFields | bench_utils/build_unified_libs.py:52-55 | a line built from fields contributes its third field when that field is an existing file |
| Ldd.ShortLineContributesNothing | bench_utils/build_unified_libs.py:52-53 | a line with fewer than three fields contributes nothing, whatever the filter |
| Ldd.Probe | bench_utils/build_unified_libs.py:40-57 | the dependencies found for a file are existing files |
| Ldd.ProbeMembers | bench_utils/build_unified_libs.py:46-57 | a path is found if and only if some output line contributes it |
| Ldd.EmptyFilterIsNoFilter | bench_utils/build_unified_libs.py:48 | an empty filter string gives the same result as no filter |
| Ldd.FilterNarrows | bench_utils/build_unified_libs.py:48-51 | every path found under a filter is also found without one, from a line containing the filter |
| Closure.LddGraph | bench_utils/build_unified_libs.py:75 | the dependency graph's successors of a file are exactly what `ldd_get_dep_lib` finds for it |
| Closure.Found | bench_utils/build_unified_libs.py:117-119 | what probing a list of files finds, as the `deps.update` loop gathers it here and at each level of the recursion, lies among the host's files |
| Closure.FoundMembers | bench_utils/build_unified_libs.py:117-119 | a file is found exactly when probing one of the listed files yields it |
| Closure.FoundAppend | bench_utils/build_unified_libs.py:117-119 | probing a concatenation of lists finds the union of what each list finds |
| Closure.Walk | bench_utils/build_unified_libs.py:73-79 | the recursion only adds to the set; what it adds is exactly the successors of the files it probed; it probes the first file first; it returns the set only after meeting a file with no dependencies, and falls through only when every file at this level has dependencies |
| Closure.JoinLevels | bench_utils/build_unified_libs.py:74-79 | probing the first file and its subtree, then the remaining siblings, accounts for every file probed |
| Closure.GetAllDeps | bench_utils/build_unified_libs.py:70-81 | a returned set contains the input and otherwise only existing files; a set is returned only if some input file has no dependencies; an empty input gives None |
| Closure.SiblingsAfterStopIgnored | bench_utils/build_unified_libs.py:74-77 | files after the first one without dependencies are never probed at that level |
| Closure.CycleExhaustsRecursion | bench_utils/build_unified_libs.py:73-79 | on a set of files each of which depends only on files of that set, the recursion never returns and hits the recursion limit |
| Closure.OrderHead | bench_utils/build_unified_libs.py:74 | iterating a non-empty subset of a set starts with a member of that set |
| Closure.Explore | bench_utils/build_unified_libs.py:70-72 | the visited-set traversal returns the least superset of its start that is closed under dependencies |
| Closure.ExploreStep | bench_utils/build_unified_libs.py:70-72 | one traversal step keeps the traversal invariant and its result bounded by the closure |
| Closure.DepsClosure | bench_utils/build_unified_libs.py:70-72 | the complete set of dependencies: contains the input, is closed under dependencies, and lies inside every such set |
| Closure.WalkWithin | bench_utils/build_unified_libs.py:73-79 | the recursion never leaves a set closed under dependencies that holds its start |
| Closure.GetAllDepsSound | bench_utils/build_unified_libs.py:70-81 | whatever the code as written returns lies inside the complete closure |
| Closure.LeafLevelNeverNone | bench_utils/build_unified_libs.py:74-77 | a first level that holds a file with no dependencies never gives None: the loop returns the set at that file at the latest, unless a deeper level raises RecursionError |
| Closure.ClosedLevelIsComplete | bench_utils/build_unified_libs.py:70-81 | a first level already closed under dependencies, as a listing of every library the loader maps makes it, is its own complete closure; a returned set is exactly that level; and with a file without dependencies in it, the code as written returns that level or raises RecursionError |
| Materialize.Basename | bench_utils/build_unified_libs.py:133 | `os.path.basename`, with no contract of its own; `Materialize.BasenameShape` characterises it |
| Materialize.BasenameShape | bench_utils/build_unified_libs.py:133 | the basename is a slash-free suffix of the path, preceded by a slash when it is shorter than the path |
| Materialize.Stem | bench_utils/build_unified_libs.py:64 | `lib_name.split('.')[0]`, with no contract of its own; `Materialize.StemShape` and `Materialize.StemIsBefore` characterise it |
| Materialize.StemShape | bench_utils/build_unified_libs.py:64 | the stem is the dot-free prefix of the name, followed by a dot when it is shorter than the name |
| Materialize.StemIsBefore | bench_utils/build_unified_libs.py:64 | the stem is `name.split('.')[0]` |
| Materialize.LinkName | bench_utils/build_unified_libs.py:64 | `split('.')[0] + '.so'`, with no contract of its own; `Materialize.LinkNameShape` and `Materialize.LinkNameFixed` characterise it |
| Materialize.LinkNameShape | bench_utils/build_unified_libs.py:64 | the link name is a dot-free prefix of the file name followed by `.so` |
| Materialize.LinkNameIdempotent | bench_utils/build_unified_libs.py:64-66 | the link name of a link name is itself |
| Materialize.LinkNameFixed | bench_utils/build_unified_libs.py:66 | no link is made exactly when the file name ends in `.so` and that is its only dot |
| Materialize.LinkNameAtFirstDot | bench_utils/build_unified_libs.py:64 | the link name is the name cut at its first dot, plus `.so` |
| Materialize.LinkNameOfStem | bench_utils/build_unified_libs.py:60-64 | a dot-free stem followed by a dot and anything gets the link `stem.so`, as `libfoo.6.1.2.so` gets `libfoo.so` |
| Materialize.WriteCopy | bench_utils/build_unified_libs.py:134 | `shutil.copy` writes exactly one entry, the link's target when the destination name is a symbolic link and the name itself otherwise, leaves every other entry as it was, and reading the name afterwards gives the copy |
| Materialize.WriteCopyKeepsLinks | bench_utils/build_unified_libs.py:133-134 | copying over a name keeps every existing link pointing at a copied file |
| Materialize.CopyEntry | bench_utils/build_unified_libs.py:131-139 | copying one dependency keeps every link pointing at a copy, leaves the directory unchanged when the copy raises, reports a failure exactly when the copy or the link raises, and only adds the copy's name and its link name |
| Materialize.CopyEntryEffects | bench_utils/build_unified_libs.py:133-135 | a copy that does not raise is present under its basename; when no failure is reported and the link name differs, the link name points at the copy |
| Materialize.CopyEntrySources | bench_utils/build_unified_libs.py:133-134 | every copy in the directory afterwards is the new dependency or was there before |
| Materialize.CopyAll | bench_utils/build_unified_libs.py:131-139 | the copy loop keeps the links sound, removes nothing, leaves the basename of every dependency whose copy succeeds present, and reports at most one failure per dependency; which copy a name holds is `Materialize.Places` |
| Materialize.CopyAllFailures | bench_utils/build_unified_libs.py:136-139 | every dependency whose copy raises is reported, and a reported one either failed to copy or needed a link |
| Materialize.CopyAllSources | bench_utils/build_unified_libs.py:131-134 | every copied file comes from the listed dependencies or was there before |
| Materialize.CopyEntryFrame | bench_utils/build_unified_libs.py:133-135 | one pass of the loop leaves every name other than the copy and its link as it was, except the target of a link the copy is written through, which then holds the copy |
| Materialize.CopyAllKeeps | bench_utils/build_unified_libs.py:131-135 | a copy in place survives the rest of the loop when no later dependency is copied or linked over it or copied through its link |
| Materialize.Places | bench_utils/build_unified_libs.py:131-135 | at the end of the loop `dest/basename(dep)` holds `dep`'s own copy, when that copy succeeds, the name was not a link, and no other dependency is copied or linked over it or through its link |
| Materialize.CopyAllOnlyAdds | bench_utils/build_unified_libs.py:131-135 | every name afterwards was there before or is the copy or link name of a dependency whose copy succeeded |
| Bundler.ArgCountOk | bench_utils/build_unified_libs.py:84 | the negation of the usage test, with no contract of its own; `Bundler.Run` states that it decides the usage exit |
| Bundler.FilterArg | bench_utils/build_unified_libs.py:92-94 | the filter is the fourth argument when there is one, with no contract of its own; `Ldd.EmptyFilterIsNoFilter` shows an empty one filters nothing |
| Bundler.Candidates | bench_utils/build_unified_libs.py:106-111 | `shared_libs + exes`, with no contract of its own; `Bundler.Run` states that an empty list exits 1 |
| Bundler.FirstLevelMembers | bench_utils/build_unified_libs.py:117-119 | a file is in the first level exactly when `ldd`, with the run's filter, finds it for some shared library or executable of the source directory |
| Bundler.DepGraph | bench_utils/build_unified_libs.py:92-94 | the run walks a well-formed graph whose successors of every file, at every level, are what `ldd_get_dep_lib` finds with the run's filter, in the host's set order |
| Bundler.Resolve | bench_utils/build_unified_libs.py:122 | any set the closure step returns lies inside the complete closure, and the visited-set step returns exactly that closure |
| Bundler.Run | bench_utils/build_unified_libs.py:83-139 | usage exits 0 and touches nothing; the destination is untouched exactly on usage or a missing source; a missing source exits 1; no candidates exits 1 with an empty destination; the status is 1 exactly on a missing source, no candidates or, as written, RecursionError; as written, None from `get_all_deps` exits 0 with an empty destination, RecursionError exits 1 with an empty destination, and a returned set exits 0 with the basename of every member whose copy succeeds present, holding that member's own copy when no names collide (`Materialize.Separated`), and nothing else copied; links are sound; every copy is a true dependency; with the visited set, the basename of every dependency whose copy succeeds is present and, without collisions, holds that dependency's copy; failures are reported only by a run that exits 0 |
| Bundler.CopySet | bench_utils/build_unified_libs.py:131-135 | copying a set in any iteration order keeps the links sound, copies only members, leaves the basename of every member whose copy succeeds present, and, when no two members' copy and link names collide, that basename holds the member's own copy |
| Bundler.CycleAbortsAsWritten | bench_utils/build_unified_libs.py:73-81 | when the first-level dependencies lie on a cycle with no leaf, the code as written exits 1 with an empty destination |
| Bundler.VisitedSetReachesCopy | bench_utils/build_unified_libs.py:122-135 | with the visited set, a run with dependencies exits 0 and copies every first-level dependency whose copy succeeds, also on a cycle |
| Scenarios.ProbeOneLine | bench_utils/build_unified_libs.py:47-57 | one contributing line gives one dependency |
| Scenarios.ChainFirstLevel | bench_utils/build_unified_libs.py:117-119 | in a chain `app` → `a` → `b` whose probe of `app` names only `a`, the first level is `{a}` |
| Scenarios.ChainWalk | bench_utils/build_unified_libs.py:73-79 | in that chain the recursion from `{a}` finds `b` but falls through without returning |
| Scenarios.ChainGivesNothing | bench_utils/build_unified_libs.py:73-81 | on any chain `a` → `b` where `b` has no dependencies, `get_all_deps({a})` returns None |
| Scenarios.AsWrittenCopiesNothing | bench_utils/build_unified_libs.py:122-126 | for every such chain the code as written exits 0 with an empty destination |
| Scenarios.ClosedChainGivesBoth | bench_utils/build_unified_libs.py:70-81 | when the probe of `app` names both `a` and `b`, the code as written returns `{a, b}` in either iteration order |
| Scenarios.LeafFirstHidesSibling | bench_utils/build_unified_libs.py:74-77 | with `{x, y}` iterated as `[x, y]`, `x` needing nothing and `y` needing `z`, `get_all_deps` returns `{x, y}` without `z`, while the complete closure holds `z` |
| Scenarios.ChainClosure | bench_utils/build_unified_libs.py:70-72 | the complete closure of `{a}` is `{a, b}` |
| Scenarios.CopyBoth | bench_utils/build_unified_libs.py:131-135 | two dependencies whose copy and link names are four different names are both copied and linked, in either iteration order |
| Scenarios.LaterCopyWins | bench_utils/build_unified_libs.py:131-139 | on two dependencies with the same basename, the later copy overwrites the earlier one, and its link fails on the taken name, so it is reported although its copy is in place |
| Scenarios.CopyThroughLink | bench_utils/build_unified_libs.py:131-135 | a later dependency whose basename is an earlier copy's link name is written through that link, replacing the earlier copy's content, with nothing reported |
| Scenarios.CopyFailing | bench_utils/build_unified_libs.py:131-139 | when one of the two copies raises, the other is still copied and only the failing one is reported |
| Scenarios.VisitedSetCopiesClosure | bench_utils/build_unified_libs.py:122-135 | with the visited set, the chain copies and links both `a` and `b` and exits 0 |
| Scenarios.FailedCopyIsIsolated | bench_utils/build_unified_libs.py:131-139 | in the chain, a failing copy of `b` leaves `a` copied, is reported, and the run still exits 0 |
| Scenarios.ChainProbes | bench_utils/build_unified_libs.py:47-57 | for concrete `ldd` listings in which `app`'s names only `libA`, the probes of the app, `libA` and `libB` are `{libA}`, `{libB}` and nothing |
| Scenarios.ChainExample | bench_utils/build_unified_libs.py:83-139 | for a concrete machine, the code as written copies nothing, while the visited set copies both libraries |
| StreamFilter.Step | stream/filter.py:45-54 | after a line, never both values are pending, and a printed row clears both |
| StreamFilter.StepRaises | stream/filter.py:46-50 | a line raises exactly when a value it is read for cannot be read; IndexError or ValueError from the count comes first |
| StreamFilter.QuietLine | stream/filter.py:44-54 | a line with neither keyword changes nothing and prints nothing |
| StreamFilter.PendingCountSkipsNumberLines | stream/filter.py:46 | while a count waits for its rate, further "Number" lines are ignored |
| StreamFilter.ZeroCountIsNotACount | stream/filter.py:46-48 | a thread count of 0 is falsy, so the next "Number" line is read again |
| StreamFilter.PendingRateSkipsTriadLines | stream/filter.py:49 | while a rate waits for its count, further "Triad" lines are ignored |
| StreamFilter.CountStartsPair | stream/filter.py:46-48 | a "Number" line without "Triad" makes its count pending and prints nothing |
| StreamFilter.RateCompletesPair | stream/filter.py:49-54 | a pending non-zero count and a "Triad" line with a non-zero rate print `count,rate` at once and clear both |
| StreamFilter.CountCompletesPair | stream/filter.py:46-54 | a pending non-zero rate and a "Number" line with a non-zero count print `count,rate` at once and clear both |
| StreamFilter.CountWaits | stream/filter.py:46-51 | with a non-zero count pending, lines without "Triad" print nothing and change nothing |
| StreamFilter.PairPrints | stream/filter.py:44-54 | a "Number" line, any lines without "Triad", then a "Triad" line print exactly that row, and the loop goes on from scratch |
| StreamFilter.TwoPairs | stream/filter.py:37-54 | two such pairs give the header and exactly their two rows |
| StreamFilter.ThreadsLine | stream/filter.py:26 | "Number of Threads requested = n" reads as the count `n` and has no "Triad" |
| StreamFilter.TriadLine | stream/filter.py:28 | a "Triad:" line reads as the rate in its second field |
| StreamFilter.SampleLogRows | stream/filter.py:26-54 | the fields of the sample log in the header comment, one line per comment line, print `Ncores,MB/sec`, `1,22019.7519` and `2,45241.9308` |
| StreamFilter.Scan | stream/filter.py:44-54 | at most one row per line, and never both values pending |
| StreamFilter.Filter | stream/filter.py:37-54 | the header comes first, followed by at most one row per line |
| StreamFilter.StepCounts | stream/filter.py:46-54 | a line prints a row only by completing a pair, supplying at most one count and one rate |
| StreamFilter.ScanCounts | stream/filter.py:44-54 | the rows plus a count still pending are at most the "Number" lines plus a count pending at the start, and likewise for rates and "Triad" lines |
| StreamFilter.FilterCounts | stream/filter.py:37-54 | every row needs its own "Number" line and its own "Triad" line |
| StreamFilter.ScanAppend | stream/filter.py:41-54 | reading `a` then `b` is reading `a + b` |
| StreamFilter.StepSources | stream/filter.py:46-53 | a printed row is the pending count and rate, each from this line or pending before it |
| StreamFilter.ScanSources | stream/filter.py:44-54 | every row is a non-zero count and a non-zero rate read from the lines or pending at the start |
| StreamFilter.FilterSources | stream/filter.py:37-54 | every row after the header is a non-zero count from some "Number" line and a non-zero rate from some "Triad" line |
| Csv.Row | stream/filter.py:53 | `'%s,%s' % (nthr, triad)`, with no contract of its own; `Csv.RowRoundTrip` reads it back |
| Csv.RowRoundTrip | stream/filter.py:53 | a printed row reads back as its integer key and its value |
| PyInt.ParseInt | stream/filter.py:48 | `int(tmp[5])`: an optional sign and digits, with single underscores between digits, and None where Python raises ValueError; no contract of its own, `PyInt.ParseShow` reads printed integers back |
| PyInt.Show | stream/filter.py:53 | `str(nthr)`, with no contract of its own; `PyInt.ShowNatValue`, `PyInt.ParseShow` and `PyInt.ShowHasNoComma` characterise it |
| PyInt.ShowNatValue | stream/filter.py:53 | the decimal digits of a natural number have that value |
| PyInt.ParseShow | stream/filter.py:48 | `int(str(n)) == n` |
| PyInt.ShowHasNoComma | stream/filter.py:53 | a printed integer contains no comma, so it is the whole first column |
| PyText.Words | bench_utils/build_unified_libs.py:52 | `str.split()`: every field is non-empty and free of whitespace; `PyText.WordsUnwords` and `PyText.ConcatWords` characterise the fields |
| PyText.Contains | stream/filter.py:46 | `line.find(sub) >= 0`, with no contract of its own; `PyText.ContainsIff` characterises it |
| PyText.ContainsIff | stream/filter.py:46 | `find(sub) >= 0` holds exactly when `sub` occurs at some offset |
| PyText.WordsUnwords | stream/filter.py:45 | splitting fields joined by single spaces gives those fields back |
| PyText.ConcatWords | bench_utils/build_unified_libs.py:52 | the fields of a line are its non-space characters, in order |
| PyText.Before | model_bench/filter.py:40 | `s.split(sep)[0]` is the prefix before the first `sep`, and all of `s` when there is none |
| PyText.BeforeExcludes | model_bench/filter.py:40 | the part before the first separator does not contain it |
| ElapsedFilter.Elapsed | model_bench/filter.py:40 | `val.split('elapsed')[0]`, with no contract of its own; `ElapsedFilter.ElapsedTrims` and `ElapsedFilter.ElapsedField` characterise it |
| ElapsedFilter.Scan | model_bench/filter.py:37-42 | at most one row per line |
| ElapsedFilter.Filter | model_bench/filter.py:30-42 | the header comes first |
| ElapsedFilter.Timings | model_bench/filter.py:38 | the timed lines are exactly the lines that mention "elapsed" |
| ElapsedFilter.ScanMatches | model_bench/filter.py:36-42 | row `i` belongs to the `i`-th timed line, numbered from the counter, and IndexError comes from the first short timed line |
| ElapsedFilter.FilterRows | model_bench/filter.py:30-42 | row `k` reads back as key `k` and the time of the `k`-th timed line; the output has one row per timed line exactly when no IndexError occurs |
| ElapsedFilter.ElapsedTrims | model_bench/filter.py:40 | the time column is a prefix of the field without "elapsed", shorter exactly when the field mentions it |
| ElapsedFilter.ShortTimedLineRaises | model_bench/filter.py:38-39 | a timed line with fewer than three fields raises IndexError |
| ElapsedFilter.TimeLine | model_bench/filter.py:38-40 | any line of at least three fields whose third field is an 'e'-free time followed by `elapsed` is timed, splits back into its fields and yields that time |
| ElapsedFilter.ElapsedField | model_bench/filter.py:38-40 | a field that is an 'e'-free time followed by `elapsed` makes the line timed and splits on `elapsed` back to exactly that time |
| ElapsedFilter.FaultsLine | model_bench/filter.py:38 | GNU `time`'s page-fault line is not timed |
| ElapsedFilter.TwoRuns | model_bench/filter.py:36-42 | two timed lines, each followed by an untimed line, give rows 1 and 2 |
| ElapsedFilter.GnuTimeExample | model_bench/filter.py:30-42 | the two-line GNU `time` output of two runs gives `NCORES,time`, `1,0:00.52` and `2,0:00.27` |

## Left out

- Running `ldd`. The subprocess, the `shlex` quoting of the path, and the
  ASCII decoding are all left out. The output is given as a list of lines.
  A missing `ldd` or a failed decode raises in Python; the model does not
  cover that.
- `glob.glob` and `list_executables`. Both are oracles of the `Machine`,
  because they read the file system.
- Ldd.Probe: the `ldd` oracle is not required to be transitively closed, which real `ldd` output is. Real `ldd` lists every library the loader maps, indirect ones included; `Closure.ClosedLevelIsComplete` states what the code as written does on such a first level.
- Ldd.ValidOrder: the iteration order of a set is a function of the set's
  contents only. Python's order can also depend on insertion history.
- `shutil.rmtree` and `os.makedirs` failing. The model also leaves out the
  case where the destination is the source directory or lies inside it.
- Materialize.CopyEntry: the link stores the copy's name, not the path
  `dest` the code passes to `os.symlink`. With a relative destination
  directory that path can dangle, and the model does not show this.
  A partly written copy is not modelled either.
- Materialize.CopyAll: the only exception distinguished is whether copying a
  dependency raises. The two `except` branches differ only in the text they
  print.
- Closure.Walk: Python's recursion limit is an abstract depth in the
  `Machine`, not the interpreter's frame count.
- Printed text is not modelled: usage, messages and the `pprint` listing.
  Only the CSV lines of the two filters are modelled.
- StreamFilter.Step: `float()` is an oracle (`FloatParser`). It gives
  whether the value is zero and the text `'%s'` prints for it, because
  floating point is out of scope.
- PyInt.ParseInt: only ASCII digits are accepted. Surrounding whitespace is
  not accepted either. The tokens come from `split()`, so they never carry
  whitespace.
- Reading the input files. `open`, `readlines`, and universal newlines are
  left out; the filters take their lines as a sequence. A missing input
  file raises after the header has already printed, which the model does
  not show.
- `KeyboardInterrupt` and other asynchronous exceptions.

## Findings

| source | as written | input that shows it | evidently intended | confidence | as-written member | corrected member |
|---|---|---|---|---|---|---|
| bench_utils/build_unified_libs.py:73-81 | `get_all_deps_recursive` returns the set only from a level where some name has no dependencies. When a level's loop runs out it returns `None`, and the result of the recursive call is discarded. | A chain `app` → `libA` → `libB`, where `libB` has no dependencies, and where the filtered `ldd` listing of `app` names `libA` but not `libB` while that of `libA` names `libB`. Real `ldd` also lists indirect libraries, so this needs a filter string or library search path that treats the two listings differently. The level `{libA}` recurses into `{libB}`, which returns. The level `{libA}` then falls off its loop and returns `None`, so the main block exits 0 with an empty destination. | Return the complete closure `{libA, libB}` and copy it | not executed | Scenarios.AsWrittenCopiesNothing | Scenarios.VisitedSetCopiesClosure |
| bench_utils/build_unified_libs.py:74-77 | The loop returns at the first name with no dependencies. Siblings after it are never probed. | First-level dependencies `{x, y}` iterated as `[x, y]`, where `x` has no dependencies, `y` needs `z`, and the filtered listings of the candidates do not name `z`. As for the row above, this needs a probe that is not transitively closed. `z` is never found. | Probe every name in the set | not executed | Scenarios.LeafFirstHidesSibling | Closure.DepsClosure |
| bench_utils/build_unified_libs.py:73-79 | There is no visited set. A cycle with no leaf recurses until `RecursionError`, and the run exits 1 after the destination was recreated. | `libA` needs `libB` and `libB` needs `libA` | Stop at names already seen and copy both | not executed | Bundler.CycleAbortsAsWritten | Bundler.VisitedSetReachesCopy |

=== FILE: bundler.dfy ===
/** The main block of bench_utils/build_unified_libs.py: argument checks,
    the source-directory check, recreating the destination, scanning for
    candidate files, probing them, building the closure and copying it.

    The destination directory is modelled by its contents after the run;
    printed text other than what decides the exit status is not modelled. */
module Bundler {
  import opened Wrappers
  import opened Ldd
  import opened Closure
  import opened Materialize

  /** The machine the tool runs on, as far as the main block sees it. */
  datatype Machine = Machine(
    host: Host,
    present: set<string>,                // paths for which os.path.exists holds
    glob: string -> seq<string>,         // glob(join(src_dir, '*.so.*')) for a source directory
    executables: string -> seq<string>,  // list_executables(src_dir)
    copyFails: string -> bool,           // shutil.copy(dep, dest/basename(dep)) raises
    depth: nat)                          // nested calls Python's recursion limit allows

  /** Which closure the run computes: the code as written, or the
      visited-set closure it was meant to compute. */
  datatype Strategy = AsWritten | VisitedSet

  /** What happened to the destination directory. */
  datatype Dest = Untouched | Recreated(dir: Dir)

  /** Exit status, destination contents, and the dependencies the copy
      loop reported as failed. */
  datatype Outcome = Outcome(status: int, dest: Dest, failures: seq<string>)

  predicate ArgCountOk(argv: seq<string>) {
    3 <= |argv| <= 4
  }

  /** The optional third argument. */
  function FilterArg(argv: seq<string>): Option<string> {
    if |argv| == 4 then Some(argv[3]) else None
  }

  /** `shared_libs + exes` for the source directory. */
  function Candidates(m: Machine, src: string): seq<string> {
    m.glob(src) + m.executables(src)
  }

  /** The dependency graph the run walks: `ldd` with the run's filter, at
      every level of the recursion, and the host's set iteration order. */
  function DepGraph(m: Machine, argv: seq<string>): (g: Graph)
    requires ValidOrder(m.host) && ArgCountOk(argv)
    ensures ValidGraph(g)
    ensures forall x :: g.succ(x) == Probe(m.host, FilterArg(argv), x)
    ensures g.order == m.host.order
  {
    LddGraph(m.host, FilterArg(argv))
  }

  /** `deps` after the probing loop: everything the candidates probe to. */
  function FirstLevel(m: Machine, argv: seq<string>): set<string>
    requires ValidOrder(m.host) && ArgCountOk(argv)
  {
    Found(DepGraph(m, argv), Candidates(m, argv[1]))
  }

  /** The first level is everything `ldd`, with the run's filter, finds for
      some shared library or executable of the source directory. */
  lemma FirstLevelMembers(m: Machine, argv: seq<string>)
    requires ValidOrder(m.host) && ArgCountOk(argv)
    ensures var cs := Candidates(m, argv[1]);
      forall x :: x in FirstLevel(m, argv) <==>
        exists k :: 0 <= k < |cs| && x in Probe(m.host, FilterArg(argv), cs[k])
  {
    FoundMembers(DepGraph(m, argv), Candidates(m, argv[1]));
  }

  function Resolve(m: Machine, strategy: Strategy, g: Graph, deps: set<string>): (d: Deps)
    requires ValidGraph(g)
    ensures d.Libs? ==> d.libs <= DepsClosure(g, deps)
    ensures strategy == VisitedSet ==> d == Libs(DepsClosure(g, deps))
  {
    match strategy
    case AsWritten =>
      GetAllDepsSound(g, m.depth, deps);
      GetAllDeps(g, m.depth, deps)
    case VisitedSet => Libs(DepsClosure(g, deps))
  }

  /** The whole run of `python build_unified_libs.py argv[1:]`. */
  function Run(m: Machine, argv: seq<string>, strategy: Strategy): (o: Outcome)
    requires ValidOrder(m.host)
    // a wrong argument count prints usage and exits 0 with no side effect
    ensures !ArgCountOk(argv) ==> o == Outcome(0, Untouched, [])
    // the destination is left alone exactly on usage or a missing source directory
    ensures o.dest.Untouched? <==> !ArgCountOk(argv) || argv[1] !in m.present
    ensures ArgCountOk(argv) && argv[1] !in m.present ==> o.status == 1
    // no candidates: exit 1, after the destination was already emptied
    ensures ArgCountOk(argv) && argv[1] in m.present && |Candidates(m, argv[1])| == 0 ==>
      o == Outcome(1, Recreated(map[]), [])
    ensures o.status in {0, 1}
    // the run exits 1 exactly on a missing source, no candidates or, as written, the recursion limit
    ensures o.status == 1 <==>
      && ArgCountOk(argv)
      && (|| argv[1] !in m.present
          || |Candidates(m, argv[1])| == 0
          || (strategy == AsWritten && GetAllDeps(DepGraph(m, argv), m.depth, FirstLevel(m, argv)) == RecursionLimit))
    // as written, the run does what `get_all_deps` hands back: None copies
    // nothing, RecursionError exits 1, and a returned set is copied
    ensures strategy == AsWritten && ArgCountOk(argv) && argv[1] in m.present && |Candidates(m, argv[1])| > 0 ==>
      var d := GetAllDeps(DepGraph(m, argv), m.depth, FirstLevel(m, argv));
      && (d == NoResult ==> o == Outcome(0, Recreated(map[]), []))
      && (d == RecursionLimit ==> o == Outcome(1, Recreated(map[]), []))
      && (d.Libs? ==>
            && o.status == 0 && o.dest.Recreated?
            && (forall n :: n in o.dest.dir && o.dest.dir[n].File? ==> o.dest.dir[n].source in d.libs)
            && (forall p :: p in d.libs && !m.copyFails(p) ==> Basename(p) in o.dest.dir)
            && (Separated(d.libs) ==> forall p :: p in d.libs && !m.copyFails(p) ==>
                  Basename(p) in o.dest.dir && o.dest.dir[Basename(p)] == File(p)))
    // whatever was copied is a true dependency of the candidates
    ensures o.dest.Recreated? ==> WellLinked(o.dest.dir)
    ensures o.dest.Recreated? ==> forall n :: n in o.dest.dir && o.dest.dir[n].File? ==>
      o.dest.dir[n].source in DepsClosure(DepGraph(m, argv), FirstLevel(m, argv))
    // with the visited-set closure, every dependency whose copy succeeds is in place
    ensures strategy == VisitedSet && o.dest.Recreated? ==>
      forall p :: p in DepsClosure(DepGraph(m, argv), FirstLevel(m, argv)) && !m.copyFails(p) ==>
        Basename(p) in o.dest.dir
    ensures strategy == VisitedSet && o.dest.Recreated? ==>
      var all := DepsClosure(DepGraph(m, argv), FirstLevel(m, argv));
      Separated(all) ==> forall p :: p in all && !m.copyFails(p) ==>
        Basename(p) in o.dest.dir && o.dest.dir[Basename(p)] == File(p)
    // failures are reported only by a run that reached the copy loop, which exits 0
    ensures forall f :: f in o.failures ==> o.status == 0 && o.dest.Recreated?
  {
    if !ArgCountOk(argv) then Outcome(0, Untouched, [])
    else
      var src := argv[1];
      var g := DepGraph(m, argv);
      if src !in m.present then Outcome(1, Untouched, [])
      else if |Candidates(m, src)| == 0 then
        assert Closed(g, {});
        Outcome(1, Recreated(map[]), [])
      else
        var deps := FirstLevel(m, argv);
        match Resolve(m, strategy, g, deps)
        case RecursionLimit => Outcome(1, Recreated(map[]), [])
        case NoResult => Outcome(0, Recreated(map[]), [])
        case Libs(all) =>
          if all == {} then Outcome(0, Recreated(map[]), [])
          else
            var r := CopyAll(map[], m.host.order(all), m.copyFails);
            CopySet(m, all);
            Outcome(0, Recreated(r.dir), r.failures)
  }

  /** The copy loop over a whole set, in the host's iteration order,
      leaves a copy of every member whose copy succeeds and no other copy. */
  lemma CopySet(m: Machine, all: set<string>)
    requires ValidOrder(m.host)
    ensures var r := CopyAll(map[], m.host.order(all), m.copyFails);
      && WellLinked(r.dir)
      && (forall n :: n in r.dir && r.dir[n].File? ==> r.dir[n].source in all)
      && (forall p :: p in all && !m.copyFails(p) ==> Basename(p) in r.dir)
      // when no names collide, each such name holds that member's own copy
      && (Separated(all) ==> forall p :: p in all && !m.copyFails(p) ==>
            Basename(p) in r.dir && r.dir[Basename(p)] == File(p))
  {
    var order := m.host.order(all);
    assert Enumerates(order, all);
    CopyAllSources(map[], order, m.copyFails);
    forall p | p in all && !m.copyFails(p)
      ensures Basename(p) in CopyAll(map[], order, m.copyFails).dir
    {
      var i :| 0 <= i < |order| && order[i] == p;
    }
    if Separated(all) {
      forall p | p in all && !m.copyFails(p)
        ensures CopyAll(map[], order, m.copyFails).dir[Basename(p)] == File(p)
      {
        var i :| 0 <= i < |order| && order[i] == p;
        assert forall j :: 0 <= j < |order| && j != i ==> order[j] != p && order[j] in all;
        Places(map[], order, m.copyFails, i);
      }
    }
  }

  /** As written, a run whose first-level dependencies all lie on a
      dependency cycle with no leaf (libA needs libB, libB needs libA)
      dies of RecursionError and exits 1 with an empty destination. */
  lemma CycleAbortsAsWritten(m: Machine, argv: seq<string>, c: set<string>)
    requires ValidOrder(m.host) && ArgCountOk(argv) && argv[1] in m.present
    requires |Candidates(m, argv[1])| > 0
    requires FirstLevel(m, argv) != {} && FirstLevel(m, argv) <= c
    requires Leafless(DepGraph(m, argv), c)
    ensures Run(m, argv, AsWritten) == Outcome(1, Recreated(map[]), [])
  {
    var deps := FirstLevel(m, argv);
    var g := DepGraph(m, argv);
    OrderHead(g, deps, c);
    CycleExhaustsRecursion(g, c, m.depth, deps, g.order(deps));
    assert GetAllDeps(g, m.depth, deps) == RecursionLimit;
    assert Resolve(m, AsWritten, g, deps) == RecursionLimit;
  }

  /** With the visited-set closure every run that gets past the argument
      and source checks terminates, exits 0, and copies every first-level
      dependency whose copy succeeds, on a dependency cycle too. */
  lemma VisitedSetReachesCopy(m: Machine, argv: seq<string>)
    requires ValidOrder(m.host) && ArgCountOk(argv) && argv[1] in m.present
    requires |Candidates(m, argv[1])| > 0 && FirstLevel(m, argv) != {}
    ensures Run(m, argv, VisitedSet).status == 0
    ensures forall p :: p in FirstLevel(m, argv) && !m.copyFails(p) ==>
      Basename(p) in Run(m, argv, VisitedSet).dest.dir
  {
    var g := DepGraph(m, argv);
    var all := DepsClosure(g, FirstLevel(m, argv));
    assert all != {};
    assert Resolve(m, VisitedSet, g, FirstLevel(m, argv)) == Libs(all);
  }
}

=== FILE: closure.dfy ===
/** The closure builder `get_all_deps` / `get_all_deps_recursive`
    (bench_utils/build_unified_libs.py), modelled as written, next to the
    visited-set closure it was meant to compute.

    As written, the recursive helper iterates over a set of names; the
    first name whose probe is empty ends that level with `return lib_set`;
    otherwise the probe is added to the shared accumulator and the helper
    recurses on it, discarding what the recursive call returns. A level
    whose loop runs out returns Python's None. There is no visited set, so
    nothing bounds the recursion but Python's recursion limit, modelled
    here as `depth`.

    The helper only ever calls `ldd_get_dep_lib(name, filter)` and
    iterates sets, so it is modelled over a `Graph`: what probing a name
    yields, and the order in which a set is iterated. `LddGraph` is the
    graph the tool actually walks. */
module Closure {
  import opened Wrappers
  import opened Ldd

  /** Probing a name yields a set of names among `nodes`; `order` is the
      iteration order of a set. */
  datatype Graph = Graph(
    succ: string -> set<string>,
    order: set<string> -> seq<string>,
    nodes: set<string>)

  ghost predicate ValidGraph(g: Graph) {
    && (forall s :: Enumerates(g.order(s), s))
    && (forall x :: g.succ(x) <= g.nodes)
  }

  /** Probing with `ldd_get_dep_lib(name, filter)` on the host. */
  function LddGraph(h: Host, filter: Option<string>): (g: Graph)
    requires ValidOrder(h)
    ensures ValidGraph(g)
    ensures forall x :: g.succ(x) == Probe(h, filter, x)
    ensures g.order == h.order
  {
    Graph(x => Probe(h, filter, x), h.order, h.files)
  }

  /** How one call of the recursive helper ends, with the accumulated set
      and the names `ldd` was run on, in order. */
  datatype Walked =
    | Returned(acc: set<string>, probed: seq<string>)     // `return lib_set` after an empty probe
    | FellThrough(acc: set<string>, probed: seq<string>)  // the loop ran out: the call returns None
    | TooDeep                                              // Python raised RecursionError

  /** What `get_all_deps` hands back to its caller. */
  datatype Deps =
    | Libs(libs: set<string>)   // a set was returned
    | NoResult                  // None was returned
    | RecursionLimit            // RecursionError propagated out of the call

  /** Everything probing the names `xs` yields. */
  function Found(g: Graph, xs: seq<string>): (r: set<string>)
    requires ValidGraph(g)
    ensures r <= g.nodes
  {
    if |xs| == 0 then {} else g.succ(xs[0]) + Found(g, xs[1..])
  }

  /** A name is found exactly when probing one of the listed names yields it. */
  lemma {:induction false} FoundMembers(g: Graph, xs: seq<string>)
    requires ValidGraph(g)
    ensures forall x :: x in Found(g, xs) <==> exists k :: 0 <= k < |xs| && x in g.succ(xs[k])
    decreases |xs|
  {
    if |xs| > 0 {
      FoundMembers(g, xs[1..]);
      forall x | x in Found(g, xs)
        ensures exists k :: 0 <= k < |xs| && x in g.succ(xs[k])
      {
        if x !in g.succ(xs[0]) {
          assert x in Found(g, xs[1..]);
          var j :| 0 <= j < |xs[1..]| && x in g.succ(xs[1..][j]);
          assert x in g.succ(xs[j + 1]);
        }
      }
      forall x, k | 0 <= k < |xs| && x in g.succ(xs[k])
        ensures x in Found(g, xs)
      {
        if k > 0 {
          assert x in g.succ(xs[1..][k - 1]);
        }
      }
    }
  }

  lemma {:induction false} FoundAppend(g: Graph, xs: seq<string>, ys: seq<string>)
    requires ValidGraph(g)
    ensures Found(g, xs + ys) == Found(g, xs) + Found(g, ys)
    decreases |xs|
  {
    if |xs| > 0 {
      assert (xs + ys)[1..] == xs[1..] + ys;
      FoundAppend(g, xs[1..], ys);
    } else {
      assert xs + ys == ys;
    }
  }

  /** `get_all_deps_recursive(lib_set, deps, filter)` with `acc` the
      current contents of `lib_set`, `todo` the iteration order of `deps`
      and `depth` the number of nested calls Python still allows. */
  function Walk(g: Graph, depth: nat, acc: set<string>, todo: seq<string>): (w: Walked)
    requires ValidGraph(g)
    // the accumulator only grows, and by exactly what the probes found
    ensures !w.TooDeep? ==> acc <= w.acc
    ensures !w.TooDeep? ==> w.acc == acc + Found(g, w.probed)
    // only given or discovered names are probed, and the first is todo[0]
    ensures !w.TooDeep? ==> forall x :: x in w.probed ==> x in todo || x in w.acc
    ensures !w.TooDeep? && |todo| > 0 ==> |w.probed| > 0 && w.probed[0] == todo[0]
    // the call returns a set exactly when one of its own names probes empty
    ensures w.Returned? ==> exists k :: 0 <= k < |todo| && g.succ(todo[k]) == {}
    ensures w.FellThrough? ==> forall k :: 0 <= k < |todo| ==> g.succ(todo[k]) != {}
    decreases depth, |todo|
  {
    if |todo| == 0 then FellThrough(acc, [])
    else
      var found := g.succ(todo[0]);
      if found == {} then Returned(acc, [todo[0]])
      else if depth == 0 then TooDeep
      else
        assert Enumerates(g.order(found), found);
        var inner := Walk(g, depth - 1, acc + found, g.order(found));
        if inner.TooDeep? then TooDeep
        else
          var rest := Walk(g, depth, inner.acc, todo[1..]);
          if rest.TooDeep? then TooDeep
          else
            var probed := [todo[0]] + inner.probed + rest.probed;
            JoinLevels(g, acc, todo, inner.acc, inner.probed, rest.acc, rest.probed);
            if rest.Returned? then Returned(rest.acc, probed) else FellThrough(rest.acc, probed)
  }

  /** A level that probed `todo[0]`, recursed into its probe, then went on
      with the siblings: the accumulator grew by what all of it probed,
      and everything probed was given or discovered. */
  lemma JoinLevels(g: Graph, acc: set<string>, todo: seq<string>,
                   innerAcc: set<string>, innerProbed: seq<string>,
                   restAcc: set<string>, restProbed: seq<string>)
    requires ValidGraph(g) && |todo| > 0
    requires innerAcc == acc + g.succ(todo[0]) + Found(g, innerProbed)
    requires forall x :: x in innerProbed ==> x in g.order(g.succ(todo[0])) || x in innerAcc
    requires innerAcc <= restAcc && restAcc == innerAcc + Found(g, restProbed)
    requires forall x :: x in restProbed ==> x in todo[1..] || x in restAcc
    ensures var probed := [todo[0]] + innerProbed + restProbed;
      && restAcc == acc + Found(g, probed)
      && (forall x :: x in probed ==> x in todo || x in restAcc)
      && probed[0] == todo[0]
  {
    var found := g.succ(todo[0]);
    FoundAppend(g, [todo[0]] + innerProbed, restProbed);
    FoundAppend(g, [todo[0]], innerProbed);
    assert Found(g, [todo[0]]) == found;
    assert Enumerates(g.order(found), found);
    assert forall x :: x in todo[1..] ==> x in todo;
  }

  /** `get_all_deps(lib_set, filter)` under a recursion allowance of `depth`. */
  function GetAllDeps(g: Graph, depth: nat, libSet: set<string>): (d: Deps)
    requires ValidGraph(g)
    ensures d.Libs? ==> libSet <= d.libs && d.libs - libSet <= g.nodes
    ensures d.Libs? ==> exists x :: x in libSet && g.succ(x) == {}
    ensures libSet == {} ==> d == NoResult
  {
    assert Enumerates(g.order(libSet), libSet);
    EnumeratesEmpty(g.order(libSet), libSet);
    match Walk(g, depth, libSet, g.order(libSet))
    case Returned(acc, probed) => Libs(acc)
    case FellThrough(_, _) => NoResult
    case TooDeep => RecursionLimit
  }

  /** Within one level, the first name whose probe is empty ends the loop:
      no name after it in the iteration order is probed at that level. */
  lemma {:induction false} SiblingsAfterStopIgnored(g: Graph, depth: nat, acc: set<string>,
                                                   todo: seq<string>, k: nat)
    requires ValidGraph(g)
    requires k < |todo| && g.succ(todo[k]) == {}
    ensures Walk(g, depth, acc, todo) == Walk(g, depth, acc, todo[..k + 1])
    decreases |todo|
  {
    var found := g.succ(todo[0]);
    if k == 0 || found == {} || depth == 0 {
    } else {
      var inner := Walk(g, depth - 1, acc + found, g.order(found));
      if !inner.TooDeep? {
        assert todo[..k + 1][1..] == todo[1..][..k];
        SiblingsAfterStopIgnored(g, depth, inner.acc, todo[1..], k - 1);
      }
    }
  }

  /** A set of names each of which probes non-empty and only into the
      set: a dependency cycle with no leaf. */
  ghost predicate Leafless(g: Graph, c: set<string>) {
    forall x {:trigger g.succ(x)} :: x in c ==> g.succ(x) != {} && g.succ(x) <= c
  }

  /** Iterating a non-empty subset of `c` starts with a member of `c`. */
  lemma OrderHead(g: Graph, s: set<string>, c: set<string>)
    requires ValidGraph(g) && s != {} && s <= c
    ensures |g.order(s)| > 0 && g.order(s)[0] in c
  {
    assert Enumerates(g.order(s), s);
    EnumeratesEmpty(g.order(s), s);
    assert g.order(s)[0] in s;
  }

  /** Without a visited set, reaching a leafless cycle exhausts every
      recursion allowance. */
  lemma {:induction false} CycleExhaustsRecursion(g: Graph, c: set<string>,
                                                  depth: nat, acc: set<string>, todo: seq<string>)
    requires ValidGraph(g) && Leafless(g, c)
    requires |todo| > 0 && todo[0] in c
    ensures Walk(g, depth, acc, todo) == TooDeep
    decreases depth
  {
    var found := g.succ(todo[0]);
    assert found != {} && found <= c;
    if depth > 0 {
      OrderHead(g, found, c);
      CycleExhaustsRecursion(g, c, depth - 1, acc + found, g.order(found));
    }
  }

  /** Every name of a set is probed and everything probed is in the set. */
  ghost predicate Closed(g: Graph, s: set<string>) {
    forall x :: x in s ==> g.succ(x) <= s
  }

  /** The closure with a visited set: probe each reached name once, until
      no reached name is left unprobed. */
  function Explore(g: Graph, visited: set<string>, reached: set<string>): (r: set<string>)
    requires ValidGraph(g)
    requires visited <= reached
    requires forall x :: x in visited ==> g.succ(x) <= reached
    ensures reached <= r
    ensures Closed(g, r)
    ensures forall s :: reached <= s && Closed(g, s) ==> r <= s
    decreases |(g.nodes + reached) - visited|
  {
    var pending := reached - visited;
    if pending == {} then
      assert forall x :: x in reached ==> x in pending || x in visited;
      reached
    else
      OrderHead(g, pending, pending);
      var next := g.order(pending)[0];
      ExploreStep(g, visited, reached, next);
      Explore(g, visited + {next}, reached + g.succ(next))
  }

  /** Probing one more reached name keeps the invariant of `Explore`,
      shrinks what is left to probe, and stays below every closed
      superset of what was reached. */
  lemma ExploreStep(g: Graph, visited: set<string>, reached: set<string>, next: string)
    requires ValidGraph(g) && visited <= reached
    requires forall x :: x in visited ==> g.succ(x) <= reached
    requires next in reached && next !in visited
    ensures var reached', visited' := reached + g.succ(next), visited + {next};
      && visited' <= reached'
      && (forall x :: x in visited' ==> g.succ(x) <= reached')
      && |(g.nodes + reached') - visited'| < |(g.nodes + reached) - visited|
      && (forall s :: reached <= s && Closed(g, s) ==> reached' <= s)
  {
    var reached', visited' := reached + g.succ(next), visited + {next};
    assert g.succ(next) <= g.nodes;
    assert (g.nodes + reached') - visited' == ((g.nodes + reached) - visited) - {next};
  }

  /** The evidently intended result of `get_all_deps`: the least set that
      contains the starting names and everything probing its members yields. */
  function DepsClosure(g: Graph, libSet: set<string>): (r: set<string>)
    requires ValidGraph(g)
    ensures libSet <= r && Closed(g, r)
    ensures forall s :: libSet <= s && Closed(g, s) ==> r <= s
  {
    Explore(g, {}, libSet)
  }

  lemma {:induction false} WalkWithin(g: Graph, c: set<string>, depth: nat, acc: set<string>, todo: seq<string>)
    requires ValidGraph(g) && Closed(g, c)
    requires acc <= c && forall i :: 0 <= i < |todo| ==> todo[i] in c
    ensures var w := Walk(g, depth, acc, todo); !w.TooDeep? ==> w.acc <= c
    decreases depth, |todo|
  {
    var w := Walk(g, depth, acc, todo);
    if |todo| > 0 {
      var found := g.succ(todo[0]);
      if found != {} && depth > 0 {
        var next := g.order(found);
        assert Enumerates(next, found);
        assert found <= c;
        WalkWithin(g, c, depth - 1, acc + found, next);
        var inner := Walk(g, depth - 1, acc + found, next);
        if !inner.TooDeep? {
          assert forall i :: 0 <= i < |todo[1..]| ==> todo[1..][i] == todo[i + 1];
          WalkWithin(g, c, depth, inner.acc, todo[1..]);
          var rest := Walk(g, depth, inner.acc, todo[1..]);
          assert !w.TooDeep? ==> w.acc == rest.acc;
        }
      }
    }
  }

  /** Whatever `get_all_deps` returns lies within the true dependency
      closure: it never reports a path that is not a dependency. */
  lemma GetAllDepsSound(g: Graph, depth: nat, libSet: set<string>)
    requires ValidGraph(g)
    ensures var d := GetAllDeps(g, depth, libSet);
      d.Libs? ==> d.libs <= DepsClosure(g, libSet)
  {
    var c := DepsClosure(g, libSet);
    assert Enumerates(g.order(libSet), libSet);
    WalkWithin(g, c, depth, libSet, g.order(libSet));
  }

  /** A level that holds a name whose probe is empty never gives None: its
      loop returns `lib_set` at that name at the latest, unless a deeper
      level raises RecursionError first. */
  lemma LeafLevelNeverNone(g: Graph, depth: nat, libSet: set<string>, leaf: string)
    requires ValidGraph(g) && leaf in libSet && g.succ(leaf) == {}
    ensures GetAllDeps(g, depth, libSet) != NoResult
  {
    var xs := g.order(libSet);
    assert Enumerates(xs, libSet);
    assert leaf in xs;
  }

  /** A first level that is already closed under probing, as an `ldd`
      listing of every library the loader maps makes it, is its own
      complete closure. A returned set is then exactly that level, and
      with a leaf in it the code as written returns that level unless it
      raises RecursionError. */
  lemma ClosedLevelIsComplete(g: Graph, depth: nat, libSet: set<string>)
    requires ValidGraph(g) && Closed(g, libSet)
    ensures DepsClosure(g, libSet) == libSet
    ensures GetAllDeps(g, depth, libSet).Libs? ==> GetAllDeps(g, depth, libSet).libs == libSet
    ensures (exists x :: x in libSet && g.succ(x) == {}) ==>
      GetAllDeps(g, depth, libSet) == Libs(libSet) || GetAllDeps(g, depth, libSet) == RecursionLimit
  {
    GetAllDepsSound(g, depth, libSet);
    if x :| x in libSet && g.succ(x) == {} {
      LeafLevelNeverNone(g, depth, libSet, x);
    }
  }
}

=== FILE: csv.dfy ===
/** The two-column rows both benchmark filters print with `'%s,%s'`: an
    integer key, a comma, and a value, and how such a row reads back. */
module Csv {
  import opened Wrappers
  import opened PyText
  import opened PyInt

  /** `'%s,%s' % (key, value)` for an integer key. */
  function Row(key: int, value: string): string {
    Show(key) + "," + value
  }

  /** The first column of a row, read back with `int()`. */
  function Key(row: string): Option<int> {
    ParseInt(Before(row, ","))
  }

  /** Everything after the first comma, or "" when there is none. */
  function Value(row: string): string {
    var k := Before(row, ",");
    if |k| < |row| then row[|k| + 1..] else ""
  }

  /** Reading a row back gives the key and the value it was written from,
      whatever the value holds, commas included. */
  lemma RowRoundTrip(key: int, value: string)
    ensures Before(Row(key, value), ",") == Show(key)
    ensures Key(Row(key, value)) == Some(key)
    ensures Value(Row(key, value)) == value
  {
    var s := Row(key, value);
    var d := Show(key);
    BeforeChar(s, ',');
    ShowHasNoComma(key);
    var r := Before(s, ",");
    assert s[|d|] == ',';
    assert forall i :: 0 <= i < |d| ==> s[i] == d[i];
    assert |r| >= |d| by {
      assert |r| < |s|;
    }
    assert r == d;
    assert s[|d| + 1..] == value;
    ParseShow(key);
  }
}

=== FILE: elapsed_filter.dfy ===
/** The model benchmark's timing filter (model_bench/filter.py): it
    prints a CSV header, then one row per line that mentions "elapsed",
    numbering the rows 1, 2, 3, ... as the core count and taking the
    time from the third field up to the word "elapsed" (the field GNU
    `time` writes as `0:00.52elapsed`).

    A matching line with fewer than three fields makes `split()[2]`
    raise IndexError, which ends the script; the rows printed before it
    stay printed. */
module ElapsedFilter {
  import opened Wrappers
  import opened PyText
  import opened PyInt
  import opened Csv

  const Header := "NCORES,time"

  /** `line.find('elapsed') >= 0` */
  predicate Timed(line: string) {
    Contains(line, "elapsed")
  }

  /** `field.split('elapsed')[0]` */
  function Elapsed(field: string): string {
    Before(field, "elapsed")
  }

  /** The rows printed, and whether IndexError ended the loop. */
  datatype Feed = Feed(rows: seq<string>, indexError: bool)

  /** The loop over `lines` with the counter at `cores`. */
  function Scan(cores: int, lines: seq<string>): (f: Feed)
    ensures |f.rows| <= |lines|
    decreases |lines|
  {
    if |lines| == 0 then Feed([], false)
    else if !Timed(lines[0]) then Scan(cores, lines[1..])
    else
      var tmp := Words(lines[0]);
      if |tmp| < 3 then Feed([], true)
      else
        var rest := Scan(cores + 1, lines[1..]);
        Feed([Row(cores, Elapsed(tmp[2]))] + rest.rows, rest.indexError)
  }

  /** What the script prints, and whether it ended in IndexError. */
  datatype Printed = Printed(lines: seq<string>, indexError: bool)

  /** `python3 filter.py benchmark_output_file`, for the file's lines. */
  function Filter(lines: seq<string>): (out: Printed)
    ensures |out.lines| >= 1 && out.lines[0] == Header
  {
    var f := Scan(1, lines);
    Printed([Header] + f.rows, f.indexError)
  }

  /** The lines that mention "elapsed", in input order. */
  function Timings(lines: seq<string>): (ts: seq<string>)
    ensures |ts| <= |lines|
    ensures forall t :: t in ts <==> t in lines && Timed(t)
  {
    if |lines| == 0 then []
    else
      assert forall t :: t in lines <==> t == lines[0] || t in lines[1..];
      (if Timed(lines[0]) then [lines[0]] else []) + Timings(lines[1..])
  }

  /** The row the loop prints for a timed line with enough fields. */
  function TimeRow(cores: int, line: string): string
    requires |Words(line)| >= 3
  {
    Row(cores, Elapsed(Words(line)[2]))
  }

  /** `rows` number the entries of `ts` from `key` on, writing entry `t`
      as `row(k, t)`, and stop at the first entry `short` holds of, which
      is exactly when `stopped` holds. */
  ghost predicate Numbered(key: int, ts: seq<string>, rows: seq<string>, stopped: bool,
                           short: string -> bool, row: (int, string) -> string) {
    && |rows| <= |ts|
    && (forall i :: 0 <= i < |rows| ==> !short(ts[i]) && rows[i] == row(key + i, ts[i]))
    && (stopped ==> |rows| < |ts| && short(ts[|rows|]))
    && (!stopped ==> |rows| == |ts|)
  }

  lemma NumberedCons(key: int, t: string, tail: seq<string>, rest: seq<string>, stopped: bool,
                     short: string -> bool, row: (int, string) -> string)
    requires !short(t) && Numbered(key + 1, tail, rest, stopped, short, row)
    ensures Numbered(key, [t] + tail, [row(key, t)] + rest, stopped, short, row)
  {
    var ts := [t] + tail;
    var rows := [row(key, t)] + rest;
    forall i | 1 <= i < |rows|
      ensures !short(ts[i]) && rows[i] == row(key + i, ts[i])
    {
      assert ts[i] == tail[i - 1] && rows[i] == rest[i - 1];
      assert key + i == (key + 1) + (i - 1);
    }
    if stopped {
      assert ts[|rows|] == tail[|rest|];
    }
  }

  /** Row `i` of the loop is the `i`-th line mentioning "elapsed", keyed
      `cores + i`; the loop stops at the first such line with fewer than
      three fields, and otherwise prints a row for every one of them. */
  ghost predicate Matches(cores: int, lines: seq<string>, f: Feed) {
    Numbered(cores, Timings(lines), f.rows, f.indexError,
             t => |Words(t)| < 3, (k, t) => if |Words(t)| >= 3 then TimeRow(k, t) else "")
  }

  lemma MatchesSkip(cores: int, lines: seq<string>)
    requires |lines| > 0 && !Timed(lines[0])
    requires Matches(cores, lines[1..], Scan(cores, lines[1..]))
    ensures Matches(cores, lines, Scan(cores, lines))
  {
    assert Timings(lines) == Timings(lines[1..]);
  }

  lemma MatchesShort(cores: int, lines: seq<string>)
    requires |lines| > 0 && Timed(lines[0]) && |Words(lines[0])| < 3
    ensures Matches(cores, lines, Scan(cores, lines))
  {
    assert Timings(lines)[0] == lines[0];
  }

  lemma MatchesTimed(cores: int, lines: seq<string>)
    requires |lines| > 0 && Timed(lines[0]) && |Words(lines[0])| >= 3
    requires Matches(cores + 1, lines[1..], Scan(cores + 1, lines[1..]))
    ensures Matches(cores, lines, Scan(cores, lines))
  {
    var rest := Scan(cores + 1, lines[1..]);
    var short := t => |Words(t)| < 3;
    var row := (k, t) => if |Words(t)| >= 3 then TimeRow(k, t) else "";
    assert Timings(lines) == [lines[0]] + Timings(lines[1..]);
    assert Scan(cores, lines).rows == [row(cores, lines[0])] + rest.rows;
    NumberedCons(cores, lines[0], Timings(lines[1..]), rest.rows, rest.indexError, short, row);
  }

  lemma {:induction false} ScanMatches(cores: int, lines: seq<string>)
    ensures Matches(cores, lines, Scan(cores, lines))
    decreases |lines|
  {
    if |lines| == 0 {
    } else if !Timed(lines[0]) {
      ScanMatches(cores, lines[1..]);
      MatchesSkip(cores, lines);
    } else if |Words(lines[0])| < 3 {
      MatchesShort(cores, lines);
    } else {
      ScanMatches(cores + 1, lines[1..]);
      MatchesTimed(cores, lines);
    }
  }

  /** Reading the output back: the row after the header at position `k`
      has core count `k` in its first column and, in its second, the
      third field of the `k`-th line mentioning "elapsed", cut before
      that word. Without an error there is exactly one row per such line. */
  lemma FilterRows(lines: seq<string>)
    ensures var out := Filter(lines);
      forall k :: 1 <= k < |out.lines| ==>
        && Key(out.lines[k]) == Some(k)
        && k - 1 < |Timings(lines)|
        && |Words(Timings(lines)[k - 1])| >= 3
        && Value(out.lines[k]) == Elapsed(Words(Timings(lines)[k - 1])[2])
    ensures !Filter(lines).indexError <==> |Filter(lines).lines| == |Timings(lines)| + 1
  {
    ScanMatches(1, lines);
    var f := Scan(1, lines);
    var out := Filter(lines).lines;
    var ts := Timings(lines);
    forall k | 1 <= k < |out|
      ensures Key(out[k]) == Some(k) && k - 1 < |ts| && |Words(ts[k - 1])| >= 3
      ensures Value(out[k]) == Elapsed(Words(ts[k - 1])[2])
    {
      assert out[k] == f.rows[k - 1];
      RowRoundTrip(k, Elapsed(Words(ts[k - 1])[2]));
    }
  }

  /** The time column never contains "elapsed": it is the third field up
      to that word, or the whole field when the word is not in it. */
  lemma ElapsedTrims(field: string)
    ensures StartsWith(field, Elapsed(field))
    ensures !Contains(Elapsed(field), "elapsed")
    ensures Contains(field, "elapsed") <==> |Elapsed(field)| < |field|
  {
    BeforeExcludes(field, "elapsed");
  }

  /** A line mentioning "elapsed" with fewer than three fields raises
      IndexError, however many rows were printed before it. */
  lemma {:induction false} ShortTimedLineRaises(cores: int, before: seq<string>, line: string, after: seq<string>)
    requires forall i :: 0 <= i < |before| ==> !Timed(before[i]) || |Words(before[i])| >= 3
    requires Timed(line) && |Words(line)| < 3
    ensures Scan(cores, before + [line] + after).indexError
    decreases |before|
  {
    var all := before + [line] + after;
    if |before| == 0 {
      assert all[0] == line;
    } else {
      assert all[0] == before[0];
      assert all[1..] == before[1..] + [line] + after;
      ShortTimedLineRaises(if Timed(before[0]) then cores + 1 else cores, before[1..], line, after);
    }
  }

  /** The two lines GNU `time` writes in its default format for two runs:
      a summary line with the wall-clock time in the third field, and a
      page-fault line, split into fields. */
  const TimeA := ["0.51user", "0.01system", "0:00.52elapsed", "99%CPU", "(0avgtext+0avgdata", "1912maxresident)k"]
  const TimeB := ["1.02user", "0.02system", "0:00.27elapsed", "380%CPU", "(0avgtext+0avgdata", "2044maxresident)k"]
  const Faults := ["0inputs+0outputs", "(0major+134minor)pagefaults", "0swaps"]

  /** A line whose third field is a time followed by "elapsed" is timed
      and yields that time, however many fields it has and however long
      the time is, as long as the time holds no 'e'. */
  lemma TimeLine(fields: seq<string>, time: string)
    requires AllWords(fields) && |fields| >= 3
    requires fields[2] == time + "elapsed"
    requires forall i :: 0 <= i < |time| ==> time[i] != 'e'
    ensures Timed(Unwords(fields))
    ensures Words(Unwords(fields)) == fields
    ensures Elapsed(Words(Unwords(fields))[2]) == time
  {
    WordsUnwords(fields);
    ElapsedField(fields[2], time);
    UnwordsContains(fields, 2, "elapsed");
  }

  /** A field `<time>elapsed` is timed and yields `<time>`, when the time
      holds no 'e'. */
  lemma ElapsedField(field: string, time: string)
    requires field == time + "elapsed"
    requires forall i :: 0 <= i < |time| ==> time[i] != 'e'
    ensures Contains(field, "elapsed")
    ensures Elapsed(field) == time
  {
    assert field[|time|..|time| + 7] == "elapsed";
    ContainsAt(field, "elapsed", |time|);
    BeforeFirstAt(field, "elapsed", |time|);
    assert field[..|time|] == time;
  }

  /** A field of printable characters other than the space. */
  lemma Printable(fields: seq<string>)
    requires forall k, i :: 0 <= k < |fields| && 0 <= i < |fields[k]| ==> '!' <= fields[k][i] <= '~'
    requires forall k :: 0 <= k < |fields| ==> |fields[k]| > 0
    ensures AllWords(fields)
  {
    forall k | 0 <= k < |fields|
      ensures IsWord(fields[k])
    {
      PrintableWord(fields[k]);
    }
  }

  lemma TimeALine()
    ensures |Words(Unwords(TimeA))| == 6
    ensures Timed(Unwords(TimeA)) && Elapsed(Words(Unwords(TimeA))[2]) == "0:00.52"
  {
    Printable(TimeA);
    TimeLine(TimeA, "0:00.52");
  }

  lemma TimeBLine()
    ensures |Words(Unwords(TimeB))| == 6
    ensures Timed(Unwords(TimeB)) && Elapsed(Words(Unwords(TimeB))[2]) == "0:00.27"
  {
    Printable(TimeB);
    TimeLine(TimeB, "0:00.27");
  }

  /** The page-fault line never mentions "elapsed": it has no 'd'. */
  lemma FaultsLine()
    ensures !Timed(Unwords(Faults))
  {
    forall k | 0 <= k < |Faults|
      ensures Lacks(Faults[k], 'd')
    {
    }
    UnwordsLacks(Faults, 'd');
    MissingChar(Unwords(Faults), "elapsed", 6);
  }

  /** Two timed runs, each followed by an untimed line, give rows 1 and 2. */
  lemma TwoRuns(a: string, o: string, b: string, ta: string, tb: string)
    requires Timed(a) && |Words(a)| >= 3 && Elapsed(Words(a)[2]) == ta
    requires !Timed(o)
    requires Timed(b) && |Words(b)| >= 3 && Elapsed(Words(b)[2]) == tb
    ensures Filter([a, o, b, o]) == Printed([Header, Row(1, ta), Row(2, tb)], false)
  {
    var lines := [a, o, b, o];
    assert lines[1..] == [o, b, o];
    assert [o, b, o][1..] == [b, o];
    assert [b, o][1..] == [o];
    assert [o][1..] == [];
    assert Scan(3, [o]) == Feed([], false);
    assert Scan(2, [b, o]) == Feed([Row(2, tb)], false);
    assert Scan(2, [o, b, o]) == Feed([Row(2, tb)], false);
  }

  /** The rows number the runs 1 and 2 and keep each wall-clock time. */
  lemma GnuTimeExample()
    ensures Filter([Unwords(TimeA), Unwords(Faults), Unwords(TimeB), Unwords(Faults)])
      == Printed(["NCORES,time", "1,0:00.52", "2,0:00.27"], false)
  {
    TimeALine();
    TimeBLine();
    FaultsLine();
    TwoRuns(Unwords(TimeA), Unwords(Faults), Unwords(TimeB), "0:00.52", "0:00.27");
    TimeRows();
  }

  lemma TimeRows()
    ensures Row(1, "0:00.52") == "1,0:00.52" && Row(2, "0:00.27") == "2,0:00.27"
  {
    assert Show(1) == "1" && Show(2) == "2";
  }
}

=== FILE: ldd.dfy ===
/** The dependency extractor `ldd_get_dep_lib`
    (bench_utils/build_unified_libs.py): run `ldd` on one file and keep the
    third field of every output line that passes the optional substring
    filter, has at least three fields, and names an existing file.

    The operating system is abstracted into a `Host`: the lines `ldd`
    prints for a path, the set of paths that are regular files, and the
    order in which Python happens to iterate a set. */
module Ldd {
  import opened Wrappers
  import opened PyText

  datatype Host = Host(
    ldd: string -> seq<string>,           // stdout of `ldd path`, one entry per line
    files: set<string>,                   // paths for which os.path.isfile holds
    order: set<string> -> seq<string>)    // iteration order of a Python set

  predicate Distinct(xs: seq<string>) {
    forall i, j :: 0 <= i < j < |xs| ==> xs[i] != xs[j]
  }

  /** `xs` lists every member of `s` exactly once. */
  predicate Enumerates(xs: seq<string>, s: set<string>) {
    Distinct(xs) && (forall x :: x in xs ==> x in s) && (forall x :: x in s ==> x in xs)
  }

  lemma EnumeratesEmpty(xs: seq<string>, s: set<string>)
    requires Enumerates(xs, s)
    ensures s == {} <==> |xs| == 0
  {
    if |xs| > 0 {
      assert xs[0] in s;
    }
    if s != {} {
      var x :| x in s;
      assert x in xs;
    }
  }

  lemma {:induction false} EnumeratesCard(xs: seq<string>, s: set<string>)
    requires Enumerates(xs, s)
    ensures |xs| == |s|
    decreases |xs|
  {
    if |xs| == 0 {
      EnumeratesEmpty(xs, s);
    } else {
      var a := xs[0];
      var rest := xs[1..];
      assert a in s;
      assert forall i :: 0 <= i < |rest| ==> rest[i] == xs[i + 1];
      assert a !in rest;
      assert forall y :: y in s - {a} ==> y in rest by {
        forall y | y in s - {a} ensures y in rest {
          assert y in xs;
          var i :| 0 <= i < |xs| && xs[i] == y;
          assert i != 0;
          assert rest[i - 1] == y;
        }
      }
      EnumeratesCard(rest, s - {a});
    }
  }

  /** The host iterates every set by listing each member exactly once. */
  ghost predicate ValidOrder(h: Host) {
    forall s :: Enumerates(h.order(s), s)
  }

  /** Python truthiness of the optional filter: None and "" both switch it off. */
  predicate Filtering(filter: Option<string>) {
    filter.Some? && filter.value != ""
  }

  /** One line of `ldd` output: the path it contributes, if any. */
  function DepOfLine(line: string, filter: Option<string>, files: set<string>): (r: Option<string>)
    ensures r.Some? ==> IsWord(r.value) && r.value in files
    ensures r.Some? && Filtering(filter) ==> Contains(line, filter.value)
  {
    if Filtering(filter) && !Contains(line, filter.value) then None
    else
      var spl := Words(line);
      if |spl| >= 3 && spl[2] in files then Some(spl[2]) else None
  }

  /** `ldd_get_dep_lib(name, filter)`: the set of contributed paths. */
  function Probe(h: Host, filter: Option<string>, name: string): (r: set<string>)
    ensures r <= h.files
  {
    set line | line in h.ldd(name) && DepOfLine(line, filter, h.files).Some?
      :: DepOfLine(line, filter, h.files).value
  }

  /** A line contributes exactly when it passes the filter, has at least
      three fields and its third field is an existing file; what it
      contributes is that third field. */
  lemma DepOfLineIff(line: string, filter: Option<string>, files: set<string>, p: string)
    ensures DepOfLine(line, filter, files) == Some(p) <==>
      && (!Filtering(filter) || Contains(line, filter.value))
      && |Words(line)| >= 3
      && Words(line)[2] == p
      && p in files
  {
  }

  /** A line written as whitespace-separated fields contributes its third
      field whenever that field is an existing file and no filter is set. */
  lemma DepOfFields(ws: seq<string>, files: set<string>)
    requires AllWords(ws) && |ws| >= 3 && ws[2] in files
    ensures DepOfLine(Unwords(ws), None, files) == Some(ws[2])
  {
    WordsUnwords(ws);
  }

  /** Lines with fewer than three fields contribute nothing, whatever the filter. */
  lemma ShortLineContributesNothing(line: string, filter: Option<string>, files: set<string>)
    requires |Words(line)| < 3
    ensures DepOfLine(line, filter, files) == None
  {
  }

  /** A path is probed out of `name` exactly when some output line contributes it. */
  lemma ProbeMembers(h: Host, filter: Option<string>, name: string, p: string)
    ensures p in Probe(h, filter, name) <==>
      exists i :: 0 <= i < |h.ldd(name)| && DepOfLine(h.ldd(name)[i], filter, h.files) == Some(p)
  {
    var lines := h.ldd(name);
    if p in Probe(h, filter, name) {
      var line :| line in lines && DepOfLine(line, filter, h.files).Some?
        && DepOfLine(line, filter, h.files).value == p;
      var i :| 0 <= i < |lines| && lines[i] == line;
      assert DepOfLine(lines[i], filter, h.files) == Some(p);
    }
  }

  /** An empty filter string behaves exactly like no filter. */
  lemma EmptyFilterIsNoFilter(h: Host, name: string)
    ensures Probe(h, Some(""), name) == Probe(h, None, name)
  {
    assert forall line :: DepOfLine(line, Some(""), h.files) == DepOfLine(line, None, h.files);
  }

  /** Filtering only removes paths: every filtered result is an
      unfiltered one, taken from a line that contains the filter. */
  lemma FilterNarrows(h: Host, f: string, name: string, p: string)
    requires p in Probe(h, Some(f), name)
    ensures p in Probe(h, None, name)
    ensures exists i :: 0 <= i < |h.ldd(name)| && Contains(h.ldd(name)[i], f) && DepOfLine(h.ldd(name)[i], None, h.files) == Some(p)
  {
    ProbeMembers(h, Some(f), name, p);
    var i :| 0 <= i < |h.ldd(name)| && DepOfLine(h.ldd(name)[i], Some(f), h.files) == Some(p);
    var line := h.ldd(name)[i];
    assert DepOfLine(line, None, h.files) == Some(p);
    assert Contains(line, f) by {
      if f == "" {
        assert StartsWith(line, f);
      }
    }
    ProbeMembers(h, None, name, p);
  }
}

=== FILE: materialize.dfy ===
/** The materializer of bench_utils/build_unified_libs.py: the link-name
    rule of `create_symlink` and the copy loop at the end of the main
    block. The destination directory is flat, so it is a map from entry
    name to entry; a symbolic link records the name of the copy it points
    at in the same directory. */
module Materialize {
  import opened Wrappers
  import opened PyText

  datatype Entry =
    | File(source: string)   // a copy of the file at path `source`
    | Link(target: string)   // a symbolic link to the entry named `target`

  type Dir = map<string, Entry>

  /** Where the last component of `p` starts: just after its last '/',
      or 0 when it has none. */
  function SlashEnd(p: string): (k: nat)
    ensures k <= |p|
  {
    if |p| == 0 || p[|p| - 1] == '/' then |p| else SlashEnd(p[..|p| - 1])
  }

  /** `os.path.basename`: the text after the last '/'. */
  function Basename(p: string): string {
    p[SlashEnd(p)..]
  }

  /** The basename is the longest '/'-free suffix of the path. */
  lemma {:induction false} BasenameShape(p: string)
    ensures var b := Basename(p);
      && EndsWith(p, b)
      && (forall i :: 0 <= i < |b| ==> b[i] != '/')
      && (|b| < |p| ==> p[|p| - |b| - 1] == '/')
    decreases |p|
  {
    if |p| > 0 && p[|p| - 1] != '/' {
      var q := p[..|p| - 1];
      var c := p[|p| - 1];
      BasenameShape(q);
      var b', b := Basename(q), Basename(p);
      assert b == b' + [c];
      assert p == q + [c];
      assert p[|p| - |b|..] == q[|q| - |b'|..] + [c];
      assert forall i :: 0 <= i < |b'| ==> b[i] == b'[i];
      if |b| < |p| {
        assert p[|p| - |b| - 1] == q[|q| - |b'| - 1];
      }
    }
  }

  /** The position of the first '.' in `base`, or its length when it has none. */
  function DotAt(base: string): (k: nat)
    ensures k <= |base|
  {
    if |base| == 0 || base[0] == '.' then 0 else 1 + DotAt(base[1..])
  }

  /** The basename up to its first '.'. */
  function Stem(base: string): string {
    base[..DotAt(base)]
  }

  /** The stem is the longest dot-free prefix. */
  lemma {:induction false} StemShape(base: string)
    ensures var r := Stem(base);
      && |r| <= |base| && r == base[..|r|]
      && (forall i :: 0 <= i < |r| ==> base[i] != '.')
      && (|r| < |base| ==> base[|r|] == '.')
    decreases |base|
  {
    if |base| > 0 && base[0] != '.' {
      StemShape(base[1..]);
      var t := Stem(base[1..]);
      assert Stem(base) == [base[0]] + t;
      assert forall i :: 1 <= i <= |t| ==> base[i] == base[1..][i - 1];
    }
  }

  /** The stem is what Python's `base.split('.')[0]` returns. */
  lemma StemIsBefore(base: string)
    ensures Stem(base) == Before(base, ".")
  {
    var r, b := Stem(base), Before(base, ".");
    StemShape(base);
    BeforeChar(base, '.');
    assert |r| == |b|;
  }

  /** The unversioned name `create_symlink` derives from a basename: the
      basename up to its first '.', followed by ".so". */
  function LinkName(base: string): string {
    Stem(base) + ".so"
  }

  /** A derived link name is a dot-free prefix of the basename, cut at its
      first '.', followed by ".so": it ends in ".so" and holds exactly one '.'. */
  lemma LinkNameShape(base: string)
    ensures var l := LinkName(base);
      && EndsWith(l, ".so")
      && (forall i :: 0 <= i < |l| ==> (l[i] == '.' <==> i == |l| - 3))
      && StartsWith(base, l[..|l| - 3])
      && (|l| - 3 < |base| ==> base[|l| - 3] == '.')
  {
    var stem := Stem(base);
    StemShape(base);
    var l := stem + ".so";
    assert l[..|l| - 3] == stem;
  }

  /** A derived link name has the form `stem.so` with a dot-free stem, so
      deriving again gives it back. */
  lemma LinkNameIdempotent(base: string)
    ensures LinkName(LinkName(base)) == LinkName(base)
  {
    var l := LinkName(base);
    LinkNameShape(base);
    LinkNameFixed(l);
  }

  /** `create_symlink` makes no link exactly for basenames that already
      are `stem.so` with a dot-free stem. */
  lemma LinkNameFixed(base: string)
    ensures LinkName(base) == base <==>
      EndsWith(base, ".so") && forall i :: 0 <= i < |base| ==> (base[i] == '.' <==> i == |base| - 3)
  {
    LinkNameShape(base);
    if EndsWith(base, ".so") && forall i :: 0 <= i < |base| ==> (base[i] == '.' <==> i == |base| - 3) {
      var k := |base| - 3;
      StemShape(base);
      var b := Stem(base);
      assert base[k] == '.';
      assert |b| <= k;
      assert |b| < |base|;
      assert base[|b|] == '.';
      assert |b| == k;
      assert base == base[..k] + ".so";
    }
  }

  lemma LinkNameAtFirstDot(base: string, k: nat)
    requires k < |base| && base[k] == '.'
    requires forall i :: 0 <= i < k ==> base[i] != '.'
    ensures LinkName(base) == base[..k] + ".so"
  {
    StemShape(base);
    var b := Stem(base);
    assert |b| == k;
  }

  /** A dot-free stem followed by a '.' and anything links as `stem.so`:
      `libfoo.so.6.1.2` and `libfoo.so` both link as `libfoo.so`. */
  lemma LinkNameOfStem(stem: string, rest: string)
    requires forall i :: 0 <= i < |stem| ==> stem[i] != '.'
    ensures LinkName(stem + "." + rest) == stem + ".so"
  {
    var base := stem + "." + rest;
    assert base[|stem|] == '.' && base[..|stem|] == stem;
    LinkNameAtFirstDot(base, |stem|);
  }

  /** `shutil.copy(src, dir/name)`: writing opens `name`, which follows a
      symbolic link to its target. */
  function WriteCopy(d: Dir, name: string, src: string): (r: Dir)
    // exactly one entry is written: the link's target when `name` is a link, else `name`
    ensures var w := if name in d && d[name].Link? then d[name].target else name;
      && r.Keys == d.Keys + {w}
      && r[w] == File(src)
      && (forall n :: n in d && n != w ==> r[n] == d[n])
    // reading `name` afterwards gives the copy
    ensures name in r && Read(r, name) == File(src)
  {
    if name in d && d[name].Link? then d[d[name].target := File(src)] else d[name := File(src)]
  }

  /** What reading `name` in the directory yields, following one link. */
  function Read(d: Dir, name: string): Entry
    requires name in d
  {
    if d[name].Link? && d[name].target in d then d[d[name].target] else d[name]
  }

  /** Every link points at a copy, and is named after it by the link rule. */
  ghost predicate WellLinked(d: Dir) {
    forall n {:trigger d[n]} :: n in d && d[n].Link? ==>
      && d[n].target in d
      && d[d[n].target].File?
      && n == LinkName(d[n].target)
      && n != d[n].target
  }

  /** Copying keeps every link pointing at a copy, adds at most the name
      written to, and leaves that name reading as the new copy. */
  lemma WriteCopyKeepsLinks(d: Dir, name: string, src: string)
    requires WellLinked(d)
    ensures var d1 := WriteCopy(d, name, src);
      && d1.Keys == d.Keys + {name}
      && WellLinked(d1)
      && Read(d1, name) == File(src)
      && (d1[name].Link? ==> name in d && LinkName(name) == name)
  {
    var d1 := WriteCopy(d, name, src);
    if name in d && d[name].Link? {
      LinkNameIdempotent(d[name].target);
    }
    forall n | n in d1 && d1[n].Link?
      ensures d1[n].target in d1 && d1[d1[n].target].File?
      ensures n == LinkName(d1[n].target) && n != d1[n].target
    {
      assert n in d && d1[n] == d[n];
    }
  }

  /** Outcome of one pass of the copy loop body. */
  datatype Step = Step(dir: Dir, failed: bool)

  /** The body of the copy loop for one dependency `dep`: copy it to
      `dest/basename(dep)`, then `create_symlink` on the copy; an exception
      from either is caught and reported, and leaves earlier effects. The
      directory is well linked because it starts empty and every step
      keeps it so. */
  function CopyEntry(d: Dir, dep: string, copyFails: string -> bool): (s: Step)
    requires WellLinked(d)
    ensures WellLinked(s.dir)
    // a failed copy changes nothing and creates no link
    ensures copyFails(dep) ==> s == Step(d, true)
    // the only other failure is a link name that is already taken
    ensures s.failed <==>
      copyFails(dep) || (LinkName(Basename(dep)) != Basename(dep) && LinkName(Basename(dep)) in d)
    // nothing is removed, and only the copy and its link name are added
    ensures d.Keys <= s.dir.Keys
    ensures s.dir.Keys <= d.Keys + Names(dep)
  {
    var name := Basename(dep);
    if copyFails(dep) then Step(d, true)
    else
      var d1 := WriteCopy(d, name, dep);
      WriteCopyKeepsLinks(d, name, dep);
      var l := LinkName(name);
      if l == name then Step(d1, false)
      else if l in d1 then Step(d1, true)
      else
        var d2 := d1[l := Link(name)];
        LinkNameIdempotent(name);
        assert d1[name] == File(dep);
        assert forall n :: n in d1 ==> d2[n] == d1[n];
        Step(d2, false)
  }

  /** After a successful copy, reading `dest/basename(dep)` gives the
      copy, and a link was made under the derived name unless the basename
      already is that name. */
  lemma CopyEntryEffects(d: Dir, dep: string, copyFails: string -> bool)
    requires WellLinked(d)
    ensures var s := CopyEntry(d, dep, copyFails);
      && (!copyFails(dep) ==> Basename(dep) in s.dir && Read(s.dir, Basename(dep)) == File(dep))
      && (!s.failed && LinkName(Basename(dep)) != Basename(dep) ==>
            LinkName(Basename(dep)) in s.dir && s.dir[LinkName(Basename(dep))] == Link(Basename(dep)))
  {
    var name := Basename(dep);
    if !copyFails(dep) {
      var d1 := WriteCopy(d, name, dep);
      WriteCopyKeepsLinks(d, name, dep);
      var l := LinkName(name);
      if l != name && l !in d1 {
        var d2 := d1[l := Link(name)];
        assert d2[name] == d1[name];
        assert d2[l] == Link(name);
      }
    }
  }

  /** One loop step writes no copy of anything but `dep`. */
  lemma CopyEntrySources(d: Dir, dep: string, copyFails: string -> bool)
    requires WellLinked(d)
    ensures var s := CopyEntry(d, dep, copyFails);
      forall n :: n in s.dir && s.dir[n].File? && s.dir[n].source != dep ==> n in d && d[n] == s.dir[n]
  {
    if !copyFails(dep) {
      var name := Basename(dep);
      WriteCopyKeepsLinks(d, name, dep);
    }
  }

  /** Every copy in the directory after the loop is a copy of one of the
      dependencies, unless it was already there. */
  lemma {:induction false} CopyAllSources(d: Dir, deps: seq<string>, copyFails: string -> bool)
    requires WellLinked(d)
    ensures var r := CopyAll(d, deps, copyFails);
      forall n :: n in r.dir && r.dir[n].File? && r.dir[n].source !in deps ==> n in d && d[n] == r.dir[n]
    decreases |deps|
  {
    if |deps| > 0 {
      var s := CopyEntry(d, deps[0], copyFails);
      CopyAllSources(s.dir, deps[1..], copyFails);
      var r := CopyAll(d, deps, copyFails);
      forall n | n in r.dir && r.dir[n].File? && r.dir[n].source !in deps
        ensures n in d && d[n] == r.dir[n]
      {
        assert r.dir[n].source !in deps[1..];
        assert n in s.dir && s.dir[n] == r.dir[n];
        CopyEntrySources(d, deps[0], copyFails);
      }
    }
  }

  /** The names a copied dependency can occupy: its copy and its link. */
  function Names(dep: string): set<string> {
    {Basename(dep), LinkName(Basename(dep))}
  }

  /** No member of `all` is copied or linked over another member's copy,
      or copied through another member's link. */
  ghost predicate Separated(all: set<string>) {
    forall p, q :: p in all && q in all && p != q ==>
      && Basename(q) != Basename(p)
      && Basename(q) != LinkName(Basename(p))
      && LinkName(Basename(q)) != Basename(p)
  }

  /** Result of the copy loop: the destination and the reported failures. */
  datatype Report = Report(dir: Dir, failures: seq<string>)

  /** `for dep in all_deps: try: copy and link except: report`. */
  function CopyAll(d: Dir, deps: seq<string>, copyFails: string -> bool): (r: Report)
    requires WellLinked(d)
    ensures WellLinked(r.dir)
    ensures d.Keys <= r.dir.Keys
    // a failure skips only its own entry: every other copy is made
    ensures forall i :: 0 <= i < |deps| && !copyFails(deps[i]) ==> Basename(deps[i]) in r.dir
    ensures |r.failures| <= |deps|
    decreases |deps|
  {
    if |deps| == 0 then Report(d, [])
    else
      var s := CopyEntry(d, deps[0], copyFails);
      var rest := CopyAll(s.dir, deps[1..], copyFails);
      CopyEntryEffects(d, deps[0], copyFails);
      assert forall i :: 1 <= i < |deps| ==> deps[1..][i - 1] == deps[i];
      Report(rest.dir, (if s.failed then [deps[0]] else []) + rest.failures)
  }

  /** Every failing copy is reported, and every report is a failing copy
      or a link name that was already taken. */
  lemma {:induction false} CopyAllFailures(d: Dir, deps: seq<string>, copyFails: string -> bool)
    requires WellLinked(d)
    ensures forall i :: 0 <= i < |deps| && copyFails(deps[i]) ==> deps[i] in CopyAll(d, deps, copyFails).failures
    ensures forall f :: f in CopyAll(d, deps, copyFails).failures ==>
      f in deps && (copyFails(f) || LinkName(Basename(f)) != Basename(f))
    decreases |deps|
  {
    if |deps| > 0 {
      var s := CopyEntry(d, deps[0], copyFails);
      var rest := CopyAll(s.dir, deps[1..], copyFails);
      CopyAllFailures(s.dir, deps[1..], copyFails);
      var fs := (if s.failed then [deps[0]] else []) + rest.failures;
      assert CopyAll(d, deps, copyFails).failures == fs;
      forall i | 1 <= i < |deps| && copyFails(deps[i])
        ensures deps[i] in fs
      {
        assert deps[1..][i - 1] == deps[i];
      }
      forall f | f in fs
        ensures f in deps && (copyFails(f) || LinkName(Basename(f)) != Basename(f))
      {
        if f in rest.failures {
          assert f in deps[1..];
        }
      }
    }
  }

  /** The copy loop adds nothing but the copies of the entries whose copy
      succeeded and the links derived from their names. */
  lemma {:induction false} CopyAllOnlyAdds(d: Dir, deps: seq<string>, copyFails: string -> bool)
    requires WellLinked(d)
    ensures forall n :: n in CopyAll(d, deps, copyFails).dir ==>
      (n in d || exists i :: 0 <= i < |deps| && !copyFails(deps[i]) && n in Names(deps[i]))
    decreases |deps|
  {
    if |deps| > 0 {
      var s := CopyEntry(d, deps[0], copyFails);
      CopyAllOnlyAdds(s.dir, deps[1..], copyFails);
      var r := CopyAll(d, deps, copyFails);
      forall n | n in r.dir
        ensures n in d || exists i :: 0 <= i < |deps| && !copyFails(deps[i]) && n in Names(deps[i])
      {
        if n !in s.dir {
          var j :| 0 <= j < |deps[1..]| && !copyFails(deps[1..][j]) && n in Names(deps[1..][j]);
          assert deps[1..][j] == deps[j + 1];
        } else if n !in d {
          assert n in Names(deps[0]);
        }
      }
    }
  }

  /** One loop step leaves every name other than the copy's and its link's
      as it was, except the target of a link the copy is written through,
      which then holds the copy. */
  lemma CopyEntryFrame(d: Dir, dep: string, copyFails: string -> bool, n: string)
    requires WellLinked(d)
    requires n != Basename(dep) && n != LinkName(Basename(dep))
    ensures var s := CopyEntry(d, dep, copyFails);
      && (n in s.dir <==> n in d)
      && (n in d ==> s.dir[n] == d[n] || (s.dir[n] == File(dep) && Basename(dep) == LinkName(n)))
  {
    var name := Basename(dep);
    if !copyFails(dep) {
      WriteCopyKeepsLinks(d, name, dep);
      if name in d && d[name].Link? && d[name].target == n {
        assert name == LinkName(n);
      }
    }
  }

  /** A copy already in place survives the rest of the loop when no later
      dependency is copied or linked over it, nor copied through its link. */
  lemma {:induction false} CopyAllKeeps(d: Dir, deps: seq<string>, copyFails: string -> bool, n: string)
    requires WellLinked(d) && n in d && d[n].File?
    requires forall j :: 0 <= j < |deps| ==>
      Basename(deps[j]) != n && Basename(deps[j]) != LinkName(n) && LinkName(Basename(deps[j])) != n
    ensures n in CopyAll(d, deps, copyFails).dir && CopyAll(d, deps, copyFails).dir[n] == d[n]
    decreases |deps|
  {
    if |deps| > 0 {
      var s := CopyEntry(d, deps[0], copyFails);
      CopyEntryFrame(d, deps[0], copyFails, n);
      assert forall j :: 0 <= j < |deps[1..]| ==> deps[1..][j] == deps[j + 1];
      CopyAllKeeps(s.dir, deps[1..], copyFails, n);
    }
  }

  /** `shutil.copy(dep, dest/basename(dep))` leaves that dependency's own
      copy under its basename at the end of the loop, when its copy
      succeeds, its basename is not already a link, and no other
      dependency is copied or linked over it or copied through its link. */
  lemma {:induction false} Places(d: Dir, deps: seq<string>, copyFails: string -> bool, i: nat)
    requires WellLinked(d) && i < |deps| && !copyFails(deps[i])
    requires Basename(deps[i]) !in d || d[Basename(deps[i])].File?
    requires forall j :: 0 <= j < |deps| && j != i ==>
      && Basename(deps[j]) != Basename(deps[i])
      && Basename(deps[j]) != LinkName(Basename(deps[i]))
      && LinkName(Basename(deps[j])) != Basename(deps[i])
    ensures var r := CopyAll(d, deps, copyFails);
      Basename(deps[i]) in r.dir && r.dir[Basename(deps[i])] == File(deps[i])
    decreases |deps|
  {
    var n := Basename(deps[i]);
    var s := CopyEntry(d, deps[0], copyFails);
    assert forall j :: 0 <= j < |deps[1..]| ==> deps[1..][j] == deps[j + 1];
    if i == 0 {
      CopyEntryEffects(d, deps[0], copyFails);
      WriteCopyKeepsLinks(d, n, deps[0]);
      assert s.dir[n] == File(deps[0]);
      CopyAllKeeps(s.dir, deps[1..], copyFails, n);
    } else {
      CopyEntryFrame(d, deps[0], copyFails, n);
      Places(s.dir, deps[1..], copyFails, i - 1);
    }
  }
}

=== FILE: pyint.dfy ===
/** Python's `int(token)` on a whitespace-free token and `str(n)` on an
    integer, for ASCII decimal digits. */
module PyInt {
  import opened Wrappers

  predicate IsDigit(c: char) {
    '0' <= c <= '9'
  }

  function DigitValue(c: char): nat
    requires IsDigit(c)
  {
    c as int - '0' as int
  }

  function DigitChar(d: nat): (c: char)
    requires d < 10
    ensures IsDigit(c) && DigitValue(c) == d
  {
    ('0' as int + d) as char
  }

  /** The digit part `int()` accepts: digits, where single underscores may
      separate two digits (`1_000`). */
  predicate ValidDigits(s: string) {
    && |s| > 0
    && IsDigit(s[0])
    && IsDigit(s[|s| - 1])
    && (forall i :: 0 <= i < |s| ==> IsDigit(s[i]) || s[i] == '_')
    && (forall i :: 0 <= i < |s| - 1 ==> s[i] == '_' ==> s[i + 1] != '_')
  }

  /** The value of a digit string, underscores ignored. */
  function DigitsValue(s: string): nat
    requires forall i :: 0 <= i < |s| ==> IsDigit(s[i]) || s[i] == '_'
  {
    if |s| == 0 then 0
    else if s[|s| - 1] == '_' then DigitsValue(s[..|s| - 1])
    else DigitsValue(s[..|s| - 1]) * 10 + DigitValue(s[|s| - 1])
  }

  /** Python's `int(token)`: an optional sign followed by valid digits;
      None where Python raises ValueError. */
  function ParseInt(s: string): Option<int> {
    if |s| > 0 && (s[0] == '-' || s[0] == '+') then
      var body := s[1..];
      if ValidDigits(body) then
        var v: int := DigitsValue(body);
        Some(if s[0] == '-' then -v else v)
      else None
    else if ValidDigits(s) then Some(DigitsValue(s))
    else None
  }

  /** Decimal digits of a natural number, most significant first. */
  function ShowNat(n: nat): (s: string)
    ensures |s| > 0
    ensures forall i :: 0 <= i < |s| ==> IsDigit(s[i])
  {
    if n < 10 then [DigitChar(n)] else ShowNat(n / 10) + [DigitChar(n % 10)]
  }

  /** Python's `str(n)`. */
  function Show(n: int): string {
    if n < 0 then "-" + ShowNat(-n) else ShowNat(n)
  }

  lemma {:induction false} ShowNatValue(n: nat)
    ensures DigitsValue(ShowNat(n)) == n
  {
    if n >= 10 {
      var s := ShowNat(n);
      assert s[..|s| - 1] == ShowNat(n / 10);
      ShowNatValue(n / 10);
    }
  }

  /** `int(str(n)) == n`: the text written for an integer reads back as
      that integer. */
  lemma ParseShow(n: int)
    ensures ParseInt(Show(n)) == Some(n)
  {
    var m := if n < 0 then -n else n;
    ShowNatValue(m);
    var d := ShowNat(m);
    assert ValidDigits(d);
    if n < 0 {
      assert Show(n)[1..] == d;
    }
  }

  /** A number written by `Show` contains no comma, so it is exactly the
      first column of a CSV row that starts with it. */
  lemma ShowHasNoComma(n: int)
    ensures forall i :: 0 <= i < |Show(n)| ==> Show(n)[i] != ','
  {
    var d := ShowNat(if n < 0 then -n else n);
    assert forall i :: 0 <= i < |d| ==> d[i] != ',';
    if n < 0 {
      assert forall i :: 1 <= i < |Show(n)| ==> Show(n)[i] == d[i - 1];
    }
  }
}

=== FILE: pytext.dfy ===
/** The few Python string operations the tools rely on, stated over
    `seq<char>`: `str.split()` with no argument, `sub in s` (which the
    tools write as `s.find(sub) >= 0`), `s.split(sep)[0]`, and the
    prefix/suffix tests used to talk about them. */
module PyText {

  /** The characters Python's `str.isspace()` accepts; `str.split()` with
      no argument splits on maximal runs of them. */
  predicate IsSpace(c: char) {
    || c == ' ' || c == '\t' || c == '\n' || c == '\r'
    || c == '\U{B}' || c == '\U{C}'
    || ('\U{1C}' <= c <= '\U{1F}')
    || c == '\U{85}' || c == '\U{A0}' || c == '\U{1680}'
    || ('\U{2000}' <= c <= '\U{200A}')
    || c == '\U{2028}' || c == '\U{2029}' || c == '\U{202F}'
    || c == '\U{205F}' || c == '\U{3000}'
  }

  /** A field as `str.split()` returns it: non-empty and free of whitespace. */
  predicate IsWord(w: string) {
    |w| > 0 && forall i :: 0 <= i < |w| ==> !IsSpace(w[i])
  }

  predicate AllWords(ws: seq<string>) {
    forall i :: 0 <= i < |ws| ==> IsWord(ws[i])
  }

  /** Length of the longest whitespace-free prefix of `s`. */
  function TokenLen(s: string): (n: nat)
    ensures n <= |s|
    ensures forall i :: 0 <= i < n ==> !IsSpace(s[i])
    ensures n < |s| ==> IsSpace(s[n])
  {
    if |s| == 0 || IsSpace(s[0]) then 0 else 1 + TokenLen(s[1..])
  }

  /** Python's `s.split()`: the maximal whitespace-free runs of `s`, in order. */
  function Words(s: string): (ws: seq<string>)
    ensures AllWords(ws)
    decreases |s|
  {
    if |s| == 0 then []
    else if IsSpace(s[0]) then Words(s[1..])
    else
      var n := TokenLen(s);
      [s[..n]] + Words(s[n..])
  }

  /** Python's `' '.join(ws)`: the inverse of `Words` on lists of fields. */
  function Unwords(ws: seq<string>): string {
    if |ws| == 0 then ""
    else if |ws| == 1 then ws[0]
    else ws[0] + " " + Unwords(ws[1..])
  }

  /** `s` with every whitespace character removed. */
  function Squeeze(s: string): string {
    if |s| == 0 then ""
    else if IsSpace(s[0]) then Squeeze(s[1..])
    else [s[0]] + Squeeze(s[1..])
  }

  function Concat(ws: seq<string>): string {
    if |ws| == 0 then "" else ws[0] + Concat(ws[1..])
  }

  lemma TokenLenOfWord(w: string, t: string)
    requires forall i :: 0 <= i < |w| ==> !IsSpace(w[i])
    requires |t| == 0 || IsSpace(t[0])
    ensures TokenLen(w + t) == |w|
  {
    assert forall i :: 0 <= i < |w| ==> (w + t)[i] == w[i];
    if |t| > 0 {
      assert (w + t)[|w|] == t[0];
    }
  }

  lemma WordsOfSpaceLed(s: string)
    requires |s| > 0 && IsSpace(s[0])
    ensures Words(s) == Words(s[1..])
  {
  }

  /** Splitting the space-joined list of fields gives the list back. */
  lemma {:induction false} WordsUnwords(ws: seq<string>)
    requires AllWords(ws)
    ensures Words(Unwords(ws)) == ws
    decreases |ws|
  {
    if |ws| == 0 {
    } else if |ws| == 1 {
      var w := ws[0];
      TokenLenOfWord(w, "");
      assert w + "" == w;
      assert w[..|w|] == w;
      assert w[|w|..] == "";
    } else {
      var w, rest := ws[0], Unwords(ws[1..]);
      var s := w + " " + rest;
      assert Unwords(ws) == s;
      assert w + " " + rest == w + (" " + rest);
      TokenLenOfWord(w, " " + rest);
      assert s[..|w|] == w;
      assert s[|w|..] == " " + rest;
      WordsOfSpaceLed(" " + rest);
      assert (" " + rest)[1..] == rest;
      WordsUnwords(ws[1..]);
      assert ws == [w] + ws[1..];
    }
  }

  lemma {:induction false} SqueezeAppendWord(w: string, t: string)
    requires forall i :: 0 <= i < |w| ==> !IsSpace(w[i])
    ensures Squeeze(w + t) == w + Squeeze(t)
    decreases |w|
  {
    if |w| > 0 {
      var s := w + t;
      assert s[0] == w[0] && !IsSpace(s[0]);
      assert s[1..] == w[1..] + t;
      assert Squeeze(s) == [w[0]] + Squeeze(w[1..] + t);
      SqueezeAppendWord(w[1..], t);
      assert w + Squeeze(t) == [w[0]] + (w[1..] + Squeeze(t));
    } else {
      assert w + t == t;
    }
  }

  /** The fields of `s`, laid end to end, are exactly the non-whitespace
      characters of `s`: splitting loses nothing but whitespace. */
  lemma {:induction false} ConcatWords(s: string)
    ensures Concat(Words(s)) == Squeeze(s)
    decreases |s|
  {
    if |s| == 0 {
    } else if IsSpace(s[0]) {
      ConcatWords(s[1..]);
    } else {
      var n := TokenLen(s);
      ConcatWords(s[n..]);
      assert Words(s) == [s[..n]] + Words(s[n..]);
      assert Concat(Words(s)) == s[..n] + Concat(Words(s[n..]));
      assert s == s[..n] + s[n..];
      SqueezeAppendWord(s[..n], s[n..]);
    }
  }

  predicate StartsWith(s: string, p: string) {
    |p| <= |s| && s[..|p|] == p
  }

  predicate EndsWith(s: string, p: string) {
    |p| <= |s| && s[|s| - |p|..] == p
  }

  /** Python's `sub in s`, i.e. `s.find(sub) >= 0`; true for every `s`
      when `sub` is empty. */
  predicate Contains(s: string, sub: string)
    decreases |s|
  {
    StartsWith(s, sub) || (|s| > 0 && Contains(s[1..], sub))
  }

  /** An occurrence of `sub` at offset `k` makes `sub in s` true. */
  lemma {:induction false} ContainsAt(s: string, sub: string, k: nat)
    requires k + |sub| <= |s| && s[k..k + |sub|] == sub
    ensures Contains(s, sub)
    decreases k
  {
    if k == 0 {
      assert s[..|sub|] == sub;
    } else {
      assert s[1..][k - 1..k - 1 + |sub|] == sub;
      ContainsAt(s[1..], sub, k - 1);
    }
  }

  /** Python's `s.split(sep)[0]`: `s` up to, not including, the first
      occurrence of `sep`, or all of `s` when `sep` does not occur. */
  function Before(s: string, sep: string): (r: string)
    requires |sep| > 0
    ensures StartsWith(s, r)
    ensures forall i :: 0 <= i < |r| ==> !StartsWith(s[i..], sep)
    ensures |r| < |s| ==> StartsWith(s[|r|..], sep)
    ensures Contains(s, sep) <==> |r| < |s|
    decreases |s|
  {
    if StartsWith(s, sep) then ""
    else if |s| == 0 then ""
    else
      var t := Before(s[1..], sep);
      assert forall i :: 1 <= i <= |s| ==> s[i..] == s[1..][i - 1..];
      [s[0]] + t
  }

  /** Where `sub in s` holds, `sub` occurs at some offset of `s`. */
  lemma {:induction false} ContainsOffset(s: string, sub: string) returns (k: nat)
    requires Contains(s, sub)
    ensures k + |sub| <= |s| && s[k..k + |sub|] == sub
    decreases |s|
  {
    if StartsWith(s, sub) {
      k := 0;
    } else {
      var j := ContainsOffset(s[1..], sub);
      k := j + 1;
      assert s[k..k + |sub|] == s[1..][j..j + |sub|];
    }
  }

  /** `sub` occurs in `s` at offset `k`. */
  predicate OccursAt(s: string, sub: string, k: nat) {
    k + |sub| <= |s| && s[k..k + |sub|] == sub
  }

  /** `sub in s` holds exactly when `sub` occurs at some offset of `s`. */
  lemma ContainsIff(s: string, sub: string)
    ensures Contains(s, sub) <==> exists k: nat :: OccursAt(s, sub, k)
  {
    if Contains(s, sub) {
      var k := ContainsOffset(s, sub);
      assert OccursAt(s, sub, k);
    }
    if k: nat :| OccursAt(s, sub, k) {
      ContainsAt(s, sub, k);
    }
  }

  /** A string that lacks any one character of `sub` does not contain `sub`. */
  lemma MissingChar(s: string, sub: string, j: nat)
    requires j < |sub| && forall i :: 0 <= i < |s| ==> s[i] != sub[j]
    ensures !Contains(s, sub)
  {
    if Contains(s, sub) {
      var k := ContainsOffset(s, sub);
    }
  }

  lemma StartsWithChar(s: string, i: nat, c: char)
    requires i <= |s|
    ensures StartsWith(s[i..], [c]) <==> i < |s| && s[i] == c
  {
    if i < |s| {
      assert s[i..][..1] == [s[i]];
    }
  }

  /** Splitting on a single character: the prefix before its first
      occurrence is free of that character, and is followed by it unless
      the prefix is the whole string. */
  lemma BeforeChar(s: string, c: char)
    ensures var r := Before(s, [c]);
      && |r| <= |s| && r == s[..|r|]
      && (forall i :: 0 <= i < |r| ==> s[i] != c && r[i] != c)
      && (|r| < |s| ==> s[|r|] == c)
  {
    var r := Before(s, [c]);
    forall i | 0 <= i < |r|
      ensures s[i] != c
    {
      StartsWithChar(s, i, c);
    }
    StartsWithChar(s, |r|, c);
  }

  /** `s.split(sep)[0]` when the first occurrence of `sep` is at `k`:
      no character before `k` can start `sep`. */
  lemma BeforeFirstAt(s: string, sep: string, k: nat)
    requires |sep| > 0 && k + |sep| <= |s| && s[k..k + |sep|] == sep
    requires forall i :: 0 <= i < k ==> s[i] != sep[0]
    ensures Before(s, sep) == s[..k]
  {
    var r := Before(s, sep);
    ContainsAt(s, sep, k);
    assert s[|r|..][0] == sep[0];
    assert s[k..][..|sep|] == sep;
    assert |r| == k;
  }

  /** `sub in s` fails when `sub` starts at no offset of `s`. */
  lemma {:induction false} NotContains(s: string, sub: string)
    requires forall i :: 0 <= i <= |s| ==> !StartsWith(s[i..], sub)
    ensures !Contains(s, sub)
    decreases |s|
  {
    assert s[0..] == s;
    if |s| > 0 {
      forall i | 0 <= i <= |s[1..]|
        ensures !StartsWith(s[1..][i..], sub)
      {
        assert s[1..][i..] == s[i + 1..];
      }
      NotContains(s[1..], sub);
    }
  }

  /** The part before the first separator contains no separator. */
  lemma BeforeExcludes(s: string, sep: string)
    requires |sep| > 0
    ensures !Contains(Before(s, sep), sep)
  {
    var r := Before(s, sep);
    assert r == s[..|r|];
    forall i | 0 <= i <= |r|
      ensures !StartsWith(r[i..], sep)
    {
      if |sep| <= |r| - i {
        assert r[i..][..|sep|] == s[i..][..|sep|];
      }
    }
    NotContains(r, sep);
  }

  /** A non-empty run of printable ASCII characters other than the space
      is a field. */
  lemma PrintableWord(w: string)
    requires |w| > 0 && forall i :: 0 <= i < |w| ==> '!' <= w[i] <= '~'
    ensures IsWord(w)
  {
  }

  /** `' '.join(ws)` contains whatever one of its fields contains. */
  lemma {:induction false} UnwordsContains(ws: seq<string>, k: nat, sub: string)
    requires k < |ws| && Contains(ws[k], sub)
    ensures Contains(Unwords(ws), sub)
    decreases |ws|
  {
    if |ws| > 1 {
      var s := Unwords(ws);
      var tail := Unwords(ws[1..]);
      assert s == ws[0] + " " + tail;
      if k == 0 {
        var j := ContainsOffset(ws[0], sub);
        assert s[j..j + |sub|] == ws[0][j..j + |sub|];
        ContainsAt(s, sub, j);
      } else {
        UnwordsContains(ws[1..], k - 1, sub);
        var j := ContainsOffset(tail, sub);
        var off := |ws[0]| + 1;
        assert s[off + j..off + j + |sub|] == tail[j..j + |sub|];
        ContainsAt(s, sub, off + j);
      }
    }
  }

  /** `s` has no character `c`. */
  predicate Lacks(s: string, c: char) {
    forall i :: 0 <= i < |s| ==> s[i] != c
  }

  /** Joining with spaces adds no character but the space. */
  lemma {:induction false} UnwordsLacks(ws: seq<string>, c: char)
    requires c != ' ' && forall k :: 0 <= k < |ws| ==> Lacks(ws[k], c)
    ensures Lacks(Unwords(ws), c)
    decreases |ws|
  {
    if |ws| > 1 {
      UnwordsLacks(ws[1..], c);
      var s := Unwords(ws);
      var tail := Unwords(ws[1..]);
      assert s == ws[0] + " " + tail;
      forall i | 0 <= i < |s|
        ensures s[i] != c
      {
        if i < |ws[0]| {
          assert s[i] == ws[0][i];
        } else if i > |ws[0]| {
          assert s[i] == tail[i - |ws[0]| - 1];
        }
      }
    }
  }
}

=== FILE: scenarios.dfy ===
/** Runs of the bundling tool on dependency chains, comparing the
    closure as written with the visited-set closure.

    The chain: an executable `app` needs a library `a`, which needs a
    library `b`, which needs nothing `ldd` reports with a path. The
    failing runs below take an `ldd` probe that is not transitively
    closed: the filtered listing of `app` names `a` but not `b`, while the
    listing of `a` names `b`. Real `ldd` lists indirect libraries too, so
    this needs listings that the filter string or the library search path
    treat differently for `app` and for `a`. When the listing of `app` is
    closed, the code as written returns the whole first level
    (`ClosedChainGivesBoth`, and `Closure.ClosedLevelIsComplete` in
    general). */
module Scenarios {
  import opened Wrappers
  import opened PyText
  import opened Ldd
  import opened Closure
  import opened Materialize
  import opened Bundler

  /** Some enumeration of a set: a stand-in for Python's set order. */
  ghost function Listing(s: set<string>): (xs: seq<string>)
    ensures Enumerates(xs, s)
    decreases |s|
  {
    if s == {} then []
    else
      var x :| x in s;
      var rest := Listing(s - {x});
      assert forall y :: y in [x] + rest ==> y == x || y in rest;
      [x] + rest
  }

  lemma ListingIsValidOrder(ldd: string -> seq<string>, files: set<string>)
    ensures ValidOrder(Host(ldd, files, s => Listing(s)))
  {
  }

  lemma EnumeratesSingleton(xs: seq<string>, x: string)
    requires Enumerates(xs, {x})
    ensures xs == [x]
  {
    EnumeratesCard(xs, {x});
    assert xs[0] in xs;
  }

  lemma EnumeratesPair(xs: seq<string>, x: string, y: string)
    requires x != y && Enumerates(xs, {x, y})
    ensures xs == [x, y] || xs == [y, x]
  {
    EnumeratesCard(xs, {x, y});
    assert xs[0] in xs && xs[1] in xs;
  }

  lemma ProbeOneLine(h: Host, name: string, line: string, p: string)
    requires h.ldd(name) == [line] && DepOfLine(line, None, h.files) == Some(p)
    ensures Probe(h, None, name) == {p}
  {
  }

  lemma BasenameAt(p: string, k: nat)
    requires k < |p| && p[k] == '/'
    requires forall i :: k < i < |p| ==> p[i] != '/'
    ensures Basename(p) == p[k + 1..]
  {
    BasenameShape(p);
    var b := Basename(p);
    assert forall i :: 0 <= i < |b| ==> p[|p| - |b| + i] == b[i];
    assert |b| <= |p| - k - 1;
    assert |b| == |p| - k - 1;
  }

  /** The run `build_unified_libs.py src dest` on a machine where the one
      candidate `app` needs `a`, `a` needs `b`, and `b` needs nothing
      `ldd` reports with a path. The probe of `app` names only `a`: the
      probe is not transitively closed. */
  ghost predicate Chain(m: Machine, argv: seq<string>, app: string, a: string, b: string) {
    && ValidOrder(m.host)
    && |argv| == 3 && argv[1] in m.present
    && Candidates(m, argv[1]) == [app]
    && a != b && m.depth >= 1
    && Probe(m.host, None, app) == {a}
    && Probe(m.host, None, a) == {b}
    && Probe(m.host, None, b) == {}
  }

  lemma ChainFirstLevel(m: Machine, argv: seq<string>, app: string, a: string, b: string)
    requires Chain(m, argv, app, a, b)
    ensures ArgCountOk(argv) && FilterArg(argv) == None
    ensures DepGraph(m, argv).succ(a) == {b} && DepGraph(m, argv).succ(b) == {}
    ensures FirstLevel(m, argv) == {a}
  {
    var g := DepGraph(m, argv);
    assert Found(g, [app]) == g.succ(app) + Found(g, [app][1..]);
  }

  /** The recursive helper on the chain: `a`'s level probes `b`, whose
      level returns at once; `a`'s loop then runs out and returns None. */
  lemma ChainWalk(g: Graph, depth: nat, a: string, b: string)
    requires ValidGraph(g) && depth >= 1 && a != b
    requires g.succ(a) == {b} && g.succ(b) == {}
    ensures Walk(g, depth, {a}, [a]) == FellThrough({a, b}, [a, b])
  {
    EnumeratesSingleton(g.order({b}), b);
    var inner := Walk(g, depth - 1, {a, b}, [b]);
    assert inner == Returned({a, b}, [b]);
    assert [a][1..] == [];
    assert Walk(g, depth, {a, b}, []) == FellThrough({a, b}, []);
  }

  /** On a chain a -> b, `get_all_deps({a})` as written returns None:
      the level {b} returns, but the level {a} then runs out of names. */
  lemma ChainGivesNothing(g: Graph, depth: nat, a: string, b: string)
    requires ValidGraph(g) && depth >= 1 && a != b
    requires g.succ(a) == {b} && g.succ(b) == {}
    ensures GetAllDeps(g, depth, {a}) == NoResult
  {
    ChainWalk(g, depth, a, b);
    EnumeratesSingleton(g.order({a}), a);
  }

  /** As written, every dependency chain app -> a -> b whose probe of
      `app` names only `a` makes `get_all_deps` return None, so the tool
      exits 0 having copied nothing. */
  lemma AsWrittenCopiesNothing(m: Machine, argv: seq<string>, app: string, a: string, b: string)
    requires Chain(m, argv, app, a, b)
    ensures Run(m, argv, AsWritten) == Outcome(0, Recreated(map[]), [])
  {
    ChainFirstLevel(m, argv, app, a, b);
    var g := DepGraph(m, argv);
    ChainGivesNothing(g, m.depth, a, b);
    assert Resolve(m, AsWritten, g, {a}) == NoResult;
  }

  /** As written, the first name without dependencies ends its level:
      with {x, y} iterated as [x, y], `x` needing nothing and `y` needing
      `z`, `get_all_deps` returns {x, y} and never finds `z`, which the
      complete closure holds. */
  lemma LeafFirstHidesSibling(g: Graph, depth: nat, x: string, y: string, z: string)
    requires ValidGraph(g) && g.order({x, y}) == [x, y]
    requires g.succ(x) == {} && g.succ(y) == {z} && z != x && z != y
    ensures GetAllDeps(g, depth, {x, y}) == Libs({x, y})
    ensures z in DepsClosure(g, {x, y}) && z !in GetAllDeps(g, depth, {x, y}).libs
  {
    assert Walk(g, depth, {x, y}, [x, y]) == Returned({x, y}, [x]);
    var r := DepsClosure(g, {x, y});
    assert y in r && g.succ(y) <= r;
  }

  /** The same chain with a listing of every library the loader maps:
      `ldd app` names `b` as well as `a`, so the first level {a, b} is
      closed and the code as written returns all of it, in either
      iteration order. */
  lemma ClosedChainGivesBoth(g: Graph, depth: nat, a: string, b: string)
    requires ValidGraph(g) && depth >= 1 && a != b
    requires g.succ(a) == {b} && g.succ(b) == {}
    ensures GetAllDeps(g, depth, {a, b}) == Libs({a, b})
  {
    var xs := g.order({a, b});
    EnumeratesPair(xs, a, b);
    EnumeratesSingleton(g.order({b}), b);
    if xs == [a, b] {
      assert Walk(g, depth - 1, {a, b}, [b]) == Returned({a, b}, [b]);
      assert Walk(g, depth, {a, b}, [b]) == Returned({a, b}, [b]);
      assert Walk(g, depth, {a, b}, xs).Returned?;
    } else {
      assert Walk(g, depth, {a, b}, xs) == Returned({a, b}, [b]);
    }
    ClosedLevelIsComplete(g, depth, {a, b});
  }

  lemma ChainClosure(g: Graph, a: string, b: string)
    requires ValidGraph(g) && g.succ(a) == {b} && g.succ(b) == {}
    ensures DepsClosure(g, {a}) == {a, b}
  {
    var c := DepsClosure(g, {a});
    assert Closed(g, {a, b});
    assert b in c by {
      assert g.succ(a) <= c;
    }
  }

  /** The copies and links of `a` and `b` are four different names, and
      neither basename already has the unversioned form. */
  predicate Separate(a: string, b: string) {
    var ba, la, bb, lb := Basename(a), LinkName(Basename(a)), Basename(b), LinkName(Basename(b));
    && ba != la && ba != bb && ba != lb
    && la != bb && la != lb
    && bb != lb
  }

  /** The destination after copying `a` alone. */
  function DirOf(a: string): Dir {
    map[Basename(a) := File(a), LinkName(Basename(a)) := Link(Basename(a))]
  }

  /** The destination after copying `a` and `b`, in either order. */
  function PairDir(a: string, b: string): Dir {
    map[Basename(a) := File(a), LinkName(Basename(a)) := Link(Basename(a)),
        Basename(b) := File(b), LinkName(Basename(b)) := Link(Basename(b))]
  }

  /** Copying a dependency whose copy and link names are both free. */
  lemma CopyFresh(d: Dir, dep: string, copyFails: string -> bool)
    requires WellLinked(d) && !copyFails(dep)
    requires Basename(dep) !in d && LinkName(Basename(dep)) !in d
    requires LinkName(Basename(dep)) != Basename(dep)
    ensures CopyEntry(d, dep, copyFails)
      == Step(d[Basename(dep) := File(dep)][LinkName(Basename(dep)) := Link(Basename(dep))], false)
  {
  }

  /** One pass of the copy loop followed by the rest of the loop. */
  lemma CopyAllStep(d: Dir, x: string, rest: seq<string>, copyFails: string -> bool, mid: Dir, failed: bool)
    requires WellLinked(d) && CopyEntry(d, x, copyFails) == Step(mid, failed)
    ensures WellLinked(mid)
    ensures CopyAll(d, [x] + rest, copyFails)
      == Report(CopyAll(mid, rest, copyFails).dir,
                (if failed then [x] else []) + CopyAll(mid, rest, copyFails).failures)
  {
    assert ([x] + rest)[1..] == rest;
  }

  /** The copy loop on a non-empty list: its head, then its tail. */
  lemma CopyAllCons(d: Dir, deps: seq<string>, copyFails: string -> bool, mid: Dir, failed: bool)
    requires WellLinked(d) && |deps| > 0 && CopyEntry(d, deps[0], copyFails) == Step(mid, failed)
    ensures WellLinked(mid)
    ensures CopyAll(d, deps, copyFails)
      == Report(CopyAll(mid, deps[1..], copyFails).dir,
                (if failed then [deps[0]] else []) + CopyAll(mid, deps[1..], copyFails).failures)
  {
  }

  lemma CopyAllNil(d: Dir, copyFails: string -> bool)
    requires WellLinked(d)
    ensures CopyAll(d, [], copyFails) == Report(d, [])
  {
  }

  /** The copy loop over two dependencies. */
  lemma CopyPair(x: string, y: string, copyFails: string -> bool, mid: Dir, last: Dir, failed: bool)
    requires CopyEntry(map[], x, copyFails) == Step(mid, false)
    requires WellLinked(mid) && CopyEntry(mid, y, copyFails) == Step(last, failed)
    ensures CopyAll(map[], [x, y], copyFails) == Report(last, if failed then [y] else [])
  {
    CopyOne(mid, y, copyFails, last, failed);
    CopyAllStep(map[], x, [y], copyFails, mid, false);
    assert [x] + [y] == [x, y];
  }

  /** The copy loop over one dependency. */
  lemma CopyOne(d: Dir, y: string, copyFails: string -> bool, last: Dir, failed: bool)
    requires WellLinked(d) && CopyEntry(d, y, copyFails) == Step(last, failed)
    ensures CopyAll(d, [y], copyFails) == Report(last, if failed then [y] else [])
  {
    var ys := [y];
    assert ys[0] == y && ys[1..] == [];
    CopyAllCons(d, ys, copyFails, last, failed);
    CopyAllNil(last, copyFails);
  }

  lemma CopyFirst(a: string, copyFails: string -> bool)
    requires !copyFails(a) && LinkName(Basename(a)) != Basename(a)
    ensures CopyEntry(map[], a, copyFails) == Step(DirOf(a), false)
    ensures WellLinked(DirOf(a))
  {
    CopyFresh(map[], a, copyFails);
  }

  lemma CopySecond(a: string, b: string, copyFails: string -> bool)
    requires Separate(a, b) && !copyFails(b) && WellLinked(DirOf(a))
    ensures CopyEntry(DirOf(a), b, copyFails) == Step(PairDir(a, b), false)
  {
    CopyFresh(DirOf(a), b, copyFails);
  }

  /** Two dependencies with the same basename: the later copy overwrites
      the earlier one, and its link fails because the link name is taken,
      so the later one is reported although its copy is in place. */
  lemma LaterCopyWins(p: string, q: string, copyFails: string -> bool)
    requires p != q && Basename(p) == Basename(q) && LinkName(Basename(p)) != Basename(p)
    requires !copyFails(p) && !copyFails(q)
    ensures var b := Basename(p);
      CopyAll(map[], [p, q], copyFails) == Report(map[b := File(q), LinkName(b) := Link(b)], [q])
  {
    var b := Basename(p);
    CopyFirst(p, copyFails);
    var last := map[b := File(q), LinkName(b) := Link(b)];
    assert WriteCopy(DirOf(p), b, q) == last;
    assert CopyEntry(DirOf(p), q, copyFails) == Step(last, true);
    CopyPair(p, q, copyFails, DirOf(p), last, true);
  }

  /** A later dependency whose basename is an earlier copy's link name is
      copied through that link: the earlier copy's content is replaced, no
      new name appears, and nothing is reported. */
  lemma CopyThroughLink(p: string, q: string, copyFails: string -> bool)
    requires Basename(q) == LinkName(Basename(p)) && LinkName(Basename(p)) != Basename(p)
    requires !copyFails(p) && !copyFails(q)
    ensures var b := Basename(p);
      CopyAll(map[], [p, q], copyFails) == Report(map[b := File(q), LinkName(b) := Link(b)], [])
  {
    var b := Basename(p);
    var l := LinkName(b);
    CopyFirst(p, copyFails);
    LinkNameIdempotent(b);
    var last := map[b := File(q), l := Link(b)];
    WriteThroughLink(b, l, p, q);
    assert CopyEntry(DirOf(p), q, copyFails) == Step(last, false);
    CopyPair(p, q, copyFails, DirOf(p), last, false);
  }

  /** Writing to a link's name writes its target. */
  lemma WriteThroughLink(b: string, l: string, p: string, q: string)
    requires b != l
    ensures WriteCopy(map[b := File(p), l := Link(b)], l, q) == map[b := File(q), l := Link(b)]
  {
  }

  lemma PairDirSymmetric(a: string, b: string)
    requires Separate(a, b)
    ensures Separate(b, a) && PairDir(b, a) == PairDir(a, b)
  {
    var d, e := PairDir(a, b), PairDir(b, a);
    assert d.Keys == e.Keys;
    forall n | n in d
      ensures d[n] == e[n]
    {
    }
  }

  /** The copy loop over `a` and `b`, in either order, when both copies
      succeed: both copies and both links are made. */
  lemma CopyBoth(a: string, b: string, order: seq<string>, copyFails: string -> bool)
    requires Separate(a, b) && !copyFails(a) && !copyFails(b)
    requires order == [a, b] || order == [b, a]
    ensures CopyAll(map[], order, copyFails) == Report(PairDir(a, b), [])
  {
    PairDirSymmetric(a, b);
    if order == [a, b] {
      CopyFirst(a, copyFails);
      CopySecond(a, b, copyFails);
      CopyPair(a, b, copyFails, DirOf(a), PairDir(a, b), false);
    } else {
      CopyFirst(b, copyFails);
      CopySecond(b, a, copyFails);
      CopyPair(b, a, copyFails, DirOf(b), PairDir(a, b), false);
    }
  }

  /** The copy loop over `a` and `b`, in either order, when only the copy
      of `b` fails: `a` is copied and linked, `b` is reported. */
  lemma CopyFailing(a: string, b: string, order: seq<string>, copyFails: string -> bool)
    requires Separate(a, b) && !copyFails(a) && copyFails(b)
    requires order == [a, b] || order == [b, a]
    ensures CopyAll(map[], order, copyFails) == Report(DirOf(a), [b])
  {
    CopyFirst(a, copyFails);
    if order == [a, b] {
      assert CopyEntry(DirOf(a), b, copyFails) == Step(DirOf(a), true);
      CopyPair(a, b, copyFails, DirOf(a), DirOf(a), true);
    } else {
      assert CopyEntry(map[], b, copyFails) == Step(map[], true);
      CopyOne(map[], a, copyFails, DirOf(a), false);
      CopyAllStep(map[], b, [a], copyFails, map[], true);
      assert [b] + [a] == [b, a];
    }
  }

  /** With a visited set, the same chain copies both libraries, each with
      its unversioned link, in either iteration order. */
  lemma VisitedSetCopiesClosure(m: Machine, argv: seq<string>, app: string, a: string, b: string)
    requires Chain(m, argv, app, a, b) && Separate(a, b)
    requires !m.copyFails(a) && !m.copyFails(b)
    ensures Run(m, argv, VisitedSet) == Outcome(0, Recreated(PairDir(a, b)), [])
  {
    ChainFirstLevel(m, argv, app, a, b);
    var g := DepGraph(m, argv);
    ChainClosure(g, a, b);
    EnumeratesPair(m.host.order({a, b}), a, b);
    CopyBoth(a, b, m.host.order({a, b}), m.copyFails);
    assert Resolve(m, VisitedSet, g, {a}) == Libs({a, b});
  }

  /** With a visited set, a dependency whose copy fails is reported and
      gets no link, and the rest of the chain is still copied. */
  lemma FailedCopyIsIsolated(m: Machine, argv: seq<string>, app: string, a: string, b: string)
    requires Chain(m, argv, app, a, b) && Separate(a, b)
    requires !m.copyFails(a) && m.copyFails(b)
    ensures Run(m, argv, VisitedSet) == Outcome(0, Recreated(DirOf(a)), [b])
  {
    ChainFirstLevel(m, argv, app, a, b);
    var g := DepGraph(m, argv);
    ChainClosure(g, a, b);
    EnumeratesPair(m.host.order({a, b}), a, b);
    CopyFailing(a, b, m.host.order({a, b}), m.copyFails);
    assert Resolve(m, VisitedSet, g, {a}) == Libs({a, b});
  }

  /** A concrete machine with such a chain, described by the lines its
      `ldd` prints: `app` needs libA.so.1, which needs libB.so.2. The
      listing of `app` names only libA.so.1, as when the library search
      path or the filter string keeps libB.so.2 out of it; real `ldd`
      would also list libB.so.2 there. */
  const App := "/src/app"
  const LibA := "/lib/libA.so.1"
  const LibB := "/lib/libB.so.2"
  const FieldsA := ["libA.so.1", "=>", LibA, "(0x1000)"]
  const FieldsB := ["libB.so.2", "=>", LibB, "(0x2000)"]

  function ChainLdd(p: string): seq<string> {
    if p == App then [Unwords(FieldsA)]
    else if p == LibA then [Unwords(FieldsB)]
    else []
  }

  ghost function ChainHost(): Host {
    Host(ChainLdd, {App, LibA, LibB}, s => Listing(s))
  }

  ghost function ChainMachine(copyFails: string -> bool): Machine {
    Machine(ChainHost(), {"/src"}, _ => [], _ => [App], copyFails, 1000)
  }

  const Argv := ["build_unified_libs.py", "/src", "/dest"]

  lemma ChainFields()
    ensures AllWords(FieldsA) && AllWords(FieldsB)
  {
    PrintableWord(FieldsA[0]);
    PrintableWord(FieldsA[1]);
    PrintableWord(FieldsA[2]);
    PrintableWord(FieldsA[3]);
    PrintableWord(FieldsB[0]);
    PrintableWord(FieldsB[1]);
    PrintableWord(FieldsB[2]);
    PrintableWord(FieldsB[3]);
  }

  lemma ChainProbes()
    ensures Probe(ChainHost(), None, App) == {LibA}
    ensures Probe(ChainHost(), None, LibA) == {LibB}
    ensures Probe(ChainHost(), None, LibB) == {}
  {
    var h := ChainHost();
    ChainFields();
    DepOfFields(FieldsA, h.files);
    DepOfFields(FieldsB, h.files);
    ProbeOneLine(h, App, Unwords(FieldsA), LibA);
    ProbeOneLine(h, LibA, Unwords(FieldsB), LibB);
  }

  lemma ChainMachineIsChain(copyFails: string -> bool)
    ensures Chain(ChainMachine(copyFails), Argv, App, LibA, LibB)
  {
    ListingIsValidOrder(ChainLdd, ChainHost().files);
    ChainProbes();
  }

  /** On the concrete machine the tool as written copies nothing, while
      the visited-set closure copies both libraries. */
  lemma ChainExample()
    ensures Run(ChainMachine(_ => false), Argv, AsWritten) == Outcome(0, Recreated(map[]), [])
    ensures var o := Run(ChainMachine(_ => false), Argv, VisitedSet);
      o.status == 0 && Basename(LibA) in o.dest.dir && Basename(LibB) in o.dest.dir
  {
    var m := ChainMachine(_ => false);
    ChainMachineIsChain(m.copyFails);
    AsWrittenCopiesNothing(m, Argv, App, LibA, LibB);
    ChainFirstLevel(m, Argv, App, LibA, LibB);
    ChainClosure(DepGraph(m, Argv), LibA, LibB);
    VisitedSetReachesCopy(m, Argv);
  }
}

=== FILE: stream_filter.dfy ===
/** The STREAM result filter (stream/filter.py): it prints a CSV header,
    then pairs each thread count, read from a "Number of Threads" line,
    with the Triad bandwidth that follows, printing one row per pair.

    The two pending values are read for Python truthiness, so a thread
    count of 0 or a rate of 0.0 counts as "not seen yet". An exception
    (a line too short to index, or a field `int()`/`float()` rejects)
    ends the script; the rows printed before it stay printed. */
module StreamFilter {
  import opened Wrappers
  import opened PyText
  import opened PyInt
  import opened Csv

  const Header := "Ncores,MB/sec"

  /** A Python float as the filter uses it: whether it is falsy (a zero)
      and the text `'%s'` formats it as. */
  datatype PyFloat = PyFloat(zero: bool, text: string)

  /** Python's `float(token)`, None where it raises ValueError. */
  type FloatParser = string -> Option<PyFloat>

  datatype Fault = IndexError | ValueError

  /** The variables `nthr` and `triad` between two lines. */
  datatype Pending = Pending(nthr: Option<int>, triad: Option<PyFloat>)

  const Empty := Pending(None, None)

  /** `bool(nthr)` */
  predicate HasCount(p: Pending) {
    p.nthr.Some? && p.nthr.value != 0
  }

  /** `bool(triad)` */
  predicate HasRate(p: Pending) {
    p.triad.Some? && !p.triad.value.zero
  }

  /** What one iteration of the loop does: the state after the line and
      the row it printed, or the exception it raised. */
  datatype Stepped = Next(pending: Pending, row: Option<string>) | Raised(fault: Fault)

  /** The line is read for a thread count: none is pending and it mentions "Number". */
  predicate CountDue(p: Pending, line: string) {
    !HasCount(p) && Contains(line, "Number")
  }

  /** The line is read for a rate: none is pending and it mentions "Triad". */
  predicate RateDue(p: Pending, line: string) {
    !HasRate(p) && Contains(line, "Triad")
  }

  /** Reading the count raises: `tmp[5]` is out of range or `int()` fails. */
  predicate CountFails(p: Pending, line: string) {
    CountDue(p, line) && (|Words(line)| < 6 || ParseInt(Words(line)[5]).None?)
  }

  /** Reading the rate raises: `tmp[1]` is out of range or `float()` fails. */
  predicate RateFails(p: Pending, line: string, floatOf: FloatParser) {
    RateDue(p, line) && (|Words(line)| < 2 || floatOf(Words(line)[1]).None?)
  }

  /** One pass of the loop body over `line`. */
  function Step(p: Pending, line: string, floatOf: FloatParser): (r: Stepped)
    // between lines the two values are never both pending: a pair is printed at once
    ensures r.Next? ==> !(HasCount(r.pending) && HasRate(r.pending))
    // printing a row starts the next pair from scratch
    ensures r.Next? && r.row.Some? ==> r.pending == Empty
  {
    var tmp := Words(line);
    if CountDue(p, line) && |tmp| < 6 then Raised(IndexError)
    else if CountDue(p, line) && ParseInt(tmp[5]).None? then Raised(ValueError)
    else
      var p1 := if CountDue(p, line) then p.(nthr := ParseInt(tmp[5])) else p;
      if RateDue(p1, line) && |tmp| < 2 then Raised(IndexError)
      else if RateDue(p1, line) && floatOf(tmp[1]).None? then Raised(ValueError)
      else
        var p2 := if RateDue(p1, line) then p1.(triad := floatOf(tmp[1])) else p1;
        if HasCount(p2) && HasRate(p2) then
          Next(Empty, Some(Row(p2.nthr.value, p2.triad.value.text)))
        else Next(p2, None)
  }

  /** The rows printed while reading `lines`, the exception that ended
      the script if any, and the pending values at the end (or at the
      line that raised). */
  datatype Feed = Feed(rows: seq<string>, fault: Option<Fault>, pending: Pending)

  function RowSeq(row: Option<string>): seq<string> {
    if row.Some? then [row.value] else []
  }

  /** The loop over `lines`, starting from `p`. */
  function Scan(p: Pending, lines: seq<string>, floatOf: FloatParser): (f: Feed)
    // at most one row per line
    ensures |f.rows| <= |lines|
    // a complete pair is never left pending
    ensures !(HasCount(p) && HasRate(p)) ==> !(HasCount(f.pending) && HasRate(f.pending))
    decreases |lines|
  {
    if |lines| == 0 then Feed([], None, p)
    else
      match Step(p, lines[0], floatOf)
      case Raised(e) => Feed([], Some(e), p)
      case Next(q, row) =>
        var rest := Scan(q, lines[1..], floatOf);
        Feed(RowSeq(row) + rest.rows, rest.fault, rest.pending)
  }

  /** What the script prints, and the exception that ended it, if any. */
  datatype Printed = Printed(lines: seq<string>, fault: Option<Fault>)

  /** `python filter.py input_file`, for the lines of the input file. */
  function Filter(lines: seq<string>, floatOf: FloatParser): (out: Printed)
    // the header comes first, whatever the input
    ensures |out.lines| >= 1 && out.lines[0] == Header
    ensures |out.lines| <= |lines| + 1
  {
    var f := Scan(Empty, lines, floatOf);
    Printed([Header] + f.rows, f.fault)
  }

  /** A line raises exactly when a value it is read for cannot be read,
      and the count is read (and fails) before the rate. */
  lemma StepRaises(p: Pending, line: string, floatOf: FloatParser)
    ensures Step(p, line, floatOf).Raised? <==> CountFails(p, line) || RateFails(p, line, floatOf)
    ensures CountFails(p, line) ==>
      Step(p, line, floatOf) == Raised(if |Words(line)| < 6 then IndexError else ValueError)
    ensures !CountFails(p, line) && RateFails(p, line, floatOf) ==>
      Step(p, line, floatOf) == Raised(if |Words(line)| < 2 then IndexError else ValueError)
  {
  }

  /** A line that mentions neither keyword changes nothing and prints nothing. */
  lemma QuietLine(p: Pending, line: string, floatOf: FloatParser)
    requires !(HasCount(p) && HasRate(p))
    requires !Contains(line, "Number") && !Contains(line, "Triad")
    ensures Step(p, line, floatOf) == Next(p, None)
  {
  }

  /** While a thread count waits for its rate, further "Number" lines are
      not read at all: they neither replace the count nor raise, however
      malformed they are. */
  lemma PendingCountSkipsNumberLines(p: Pending, line: string, floatOf: FloatParser)
    requires HasCount(p) && !HasRate(p) && !Contains(line, "Triad")
    ensures Step(p, line, floatOf) == Next(p, None)
  {
  }

  /** A thread count of 0 is falsy: it is kept but does not count as
      seen, so the next "Number" line is read again and replaces it. */
  lemma ZeroCountIsNotACount(line: string, next: string, floatOf: FloatParser)
    requires Contains(line, "Number") && !Contains(line, "Triad")
    requires |Words(line)| >= 6 && ParseInt(Words(line)[5]) == Some(0)
    requires Contains(next, "Number")
    ensures Step(Empty, line, floatOf) == Next(Pending(Some(0), None), None)
    ensures CountDue(Pending(Some(0), None), next)
  {
  }

  /** While a rate waits for its count, further "Triad" lines are not
      read at all. */
  lemma PendingRateSkipsTriadLines(p: Pending, line: string, floatOf: FloatParser)
    requires HasRate(p) && !HasCount(p) && !Contains(line, "Number")
    ensures Step(p, line, floatOf) == Next(p, None)
  {
  }

  /** A "Number" line without "Triad" starts a pair with its count. */
  lemma CountStartsPair(line: string, n: int, floatOf: FloatParser)
    requires CountLine(line, n) && !Contains(line, "Triad")
    ensures Step(Empty, line, floatOf) == Next(Pending(Some(n), None), None)
  {
  }

  /** A pending non-zero count and a "Triad" line with a non-zero rate
      print the pair at once and start over, whatever else the line holds. */
  lemma RateCompletesPair(n: int, line: string, floatOf: FloatParser, t: PyFloat)
    requires n != 0 && RateLine(line, floatOf, t) && !t.zero
    ensures Step(Pending(Some(n), None), line, floatOf) == Next(Empty, Some(Row(n, t.text)))
  {
  }

  /** In the other order, a pending non-zero rate and a "Number" line
      with a non-zero count print the pair just the same. */
  lemma CountCompletesPair(n: int, line: string, floatOf: FloatParser, t: PyFloat)
    requires n != 0 && CountLine(line, n) && !t.zero
    ensures Step(Pending(None, Some(t)), line, floatOf) == Next(Empty, Some(Row(n, t.text)))
  {
  }

  /** With a non-zero count pending, lines without "Triad" are passed over. */
  lemma {:induction false} CountWaits(n: int, mid: seq<string>, floatOf: FloatParser)
    requires n != 0 && forall i :: 0 <= i < |mid| ==> !Contains(mid[i], "Triad")
    ensures Scan(Pending(Some(n), None), mid, floatOf) == Feed([], None, Pending(Some(n), None))
    decreases |mid|
  {
    if |mid| > 0 {
      PendingCountSkipsNumberLines(Pending(Some(n), None), mid[0], floatOf);
      CountWaits(n, mid[1..], floatOf);
    }
  }

  /** A "Number" line with a non-zero count, then any lines without
      "Triad", then a "Triad" line with a non-zero rate: the pair is
      printed, and the loop goes on from scratch. */
  lemma PairPrints(a: string, mid: seq<string>, b: string, rest: seq<string>,
                   floatOf: FloatParser, n: int, t: PyFloat)
    requires CountLine(a, n) && n != 0 && !Contains(a, "Triad")
    requires forall i :: 0 <= i < |mid| ==> !Contains(mid[i], "Triad")
    requires RateLine(b, floatOf, t) && !t.zero
    ensures var f := Scan(Empty, rest, floatOf);
      Scan(Empty, [a] + mid + [b] + rest, floatOf) == Feed([Row(n, t.text)] + f.rows, f.fault, f.pending)
  {
    var lines := [a] + mid + [b] + rest;
    var q := Pending(Some(n), None);
    CountStartsPair(a, n, floatOf);
    assert lines[0] == a && lines[1..] == mid + ([b] + rest);
    CountWaits(n, mid, floatOf);
    ScanAppend(q, mid, [b] + rest, floatOf);
    RateCompletesPair(n, b, floatOf, t);
    assert ([b] + rest)[1..] == rest;
  }

  function Bit(b: bool): nat {
    if b then 1 else 0
  }

  /** How many of the lines mention `word`. */
  function Mentions(lines: seq<string>, word: string): (n: nat)
    ensures n <= |lines|
  {
    if |lines| == 0 then 0 else Bit(Contains(lines[0], word)) + Mentions(lines[1..], word)
  }

  /** One line prints a row only by completing a pair, and it supplies at
      most one of the pair's values. */
  lemma StepCounts(p: Pending, line: string, floatOf: FloatParser)
    requires Step(p, line, floatOf).Next?
    ensures var r := Step(p, line, floatOf);
      |RowSeq(r.row)| + Bit(HasCount(r.pending)) <= Bit(Contains(line, "Number")) + Bit(HasCount(p))
    ensures var r := Step(p, line, floatOf);
      |RowSeq(r.row)| + Bit(HasRate(r.pending)) <= Bit(Contains(line, "Triad")) + Bit(HasRate(p))
  {
  }

  lemma {:induction false} ScanCounts(p: Pending, lines: seq<string>, floatOf: FloatParser)
    ensures var f := Scan(p, lines, floatOf);
      |f.rows| + Bit(HasCount(f.pending)) <= Mentions(lines, "Number") + Bit(HasCount(p))
    ensures var f := Scan(p, lines, floatOf);
      |f.rows| + Bit(HasRate(f.pending)) <= Mentions(lines, "Triad") + Bit(HasRate(p))
    decreases |lines|
  {
    if |lines| > 0 {
      var r := Step(p, lines[0], floatOf);
      if r.Next? {
        StepCounts(p, lines[0], floatOf);
        ScanCounts(r.pending, lines[1..], floatOf);
      }
    }
  }

  /** Every row needs its own "Number" line and its own "Triad" line. */
  lemma FilterCounts(lines: seq<string>, floatOf: FloatParser)
    ensures |Filter(lines, floatOf).lines| <= 1 + Mentions(lines, "Number")
    ensures |Filter(lines, floatOf).lines| <= 1 + Mentions(lines, "Triad")
  {
    ScanCounts(Empty, lines, floatOf);
  }

  /** The loop streams: reading `a` and then `b` is reading `a + b`, and
      an exception in `a` means no line of `b` is read. */
  lemma {:induction false} ScanAppend(p: Pending, a: seq<string>, b: seq<string>, floatOf: FloatParser)
    ensures var fa := Scan(p, a, floatOf);
      fa.fault.Some? ==> Scan(p, a + b, floatOf) == fa
    ensures var fa := Scan(p, a, floatOf); var fb := Scan(fa.pending, b, floatOf);
      fa.fault.None? ==> Scan(p, a + b, floatOf) == Feed(fa.rows + fb.rows, fb.fault, fb.pending)
    decreases |a|
  {
    if |a| == 0 {
      assert a + b == b;
    } else {
      var ab := a + b;
      assert ab[0] == a[0];
      assert ab[1..] == a[1..] + b;
      match Step(p, a[0], floatOf)
      case Raised(e) =>
        assert Scan(p, ab, floatOf) == Feed([], Some(e), p);
      case Next(q, row) =>
        ScanAppend(q, a[1..], b, floatOf);
        var fa := Scan(q, a[1..], floatOf);
        var fab := Scan(q, a[1..] + b, floatOf);
        assert Scan(p, a, floatOf) == Feed(RowSeq(row) + fa.rows, fa.fault, fa.pending);
        assert Scan(p, ab, floatOf) == Feed(RowSeq(row) + fab.rows, fab.fault, fab.pending);
        if fa.fault.None? {
          var fb := Scan(fa.pending, b, floatOf);
          SeqAssoc(RowSeq(row), fa.rows, fb.rows);
        }
    }
  }

  /** The six lines of two pairs, split as each pair is taken. */
  lemma TwoPairLines(a2: string, c: string, b2: string, a1: string, b1: string)
    ensures [a2] + [c] + [b2] + [] == [a2, c, b2]
    ensures [a1] + [c] + [b1] + [a2, c, b2] == [a1, c, b1, a2, c, b2]
  {
  }

  /** Concatenation of lines is associative. */
  lemma SeqAssoc(x: seq<string>, y: seq<string>, z: seq<string>)
    ensures x + (y + z) == (x + y) + z
  {
  }

  /** `line` is a "Number" line whose sixth field reads as `n`. */
  predicate CountLine(line: string, n: int) {
    Contains(line, "Number") && |Words(line)| >= 6 && ParseInt(Words(line)[5]) == Some(n)
  }

  /** `line` is a "Triad" line whose second field reads as `t`. */
  predicate RateLine(line: string, floatOf: FloatParser, t: PyFloat) {
    Contains(line, "Triad") && |Words(line)| >= 2 && floatOf(Words(line)[1]) == Some(t)
  }

  predicate CountIn(lines: seq<string>, n: int) {
    exists i :: 0 <= i < |lines| && CountLine(lines[i], n)
  }

  /** Some "Triad" line of `lines` reads as a non-zero rate printed as `v`. */
  ghost predicate RateIn(lines: seq<string>, floatOf: FloatParser, v: string) {
    exists i, t :: 0 <= i < |lines| && RateLine(lines[i], floatOf, t) && !t.zero && t.text == v
  }

  /** A printed row is a non-zero count and the text of a non-zero rate,
      each read from one of `lines` or already pending in `p`. */
  ghost predicate Sourced(p: Pending, lines: seq<string>, floatOf: FloatParser, row: string) {
    && Key(row).Some? && Key(row).value != 0
    && (CountIn(lines, Key(row).value) || p.nthr == Key(row))
    && (RateIn(lines, floatOf, Value(row)) || (HasRate(p) && p.triad.value.text == Value(row)))
  }

  lemma StepSources(p: Pending, line: string, floatOf: FloatParser)
    requires Step(p, line, floatOf).Next?
    ensures var r := Step(p, line, floatOf);
      r.row.Some? ==> Sourced(p, [line], floatOf, r.row.value)
    ensures var q := Step(p, line, floatOf).pending;
      && (HasCount(q) ==> CountIn([line], q.nthr.value) || q.nthr == p.nthr)
      && (HasRate(q) ==> RateIn([line], floatOf, q.triad.value.text) || q.triad == p.triad)
  {
    var r := Step(p, line, floatOf);
    var tmp := Words(line);
    var p1 := if CountDue(p, line) then p.(nthr := ParseInt(tmp[5])) else p;
    var p2 := if RateDue(p1, line) then p1.(triad := floatOf(tmp[1])) else p1;
    if CountDue(p, line) {
      assert CountLine([line][0], p1.nthr.value);
    }
    if RateDue(p1, line) {
      assert RateLine([line][0], floatOf, p2.triad.value);
    }
    if r.row.Some? {
      RowRoundTrip(p2.nthr.value, p2.triad.value.text);
    }
  }

  lemma CountInTail(lines: seq<string>, n: int)
    requires |lines| > 0 && (CountIn(lines[1..], n) || CountIn([lines[0]], n))
    ensures CountIn(lines, n)
  {
    if CountIn(lines[1..], n) {
      var i :| 0 <= i < |lines[1..]| && CountLine(lines[1..][i], n);
      assert CountLine(lines[i + 1], n);
    } else {
      assert CountLine(lines[0], n);
    }
  }

  lemma RateInTail(lines: seq<string>, floatOf: FloatParser, v: string)
    requires |lines| > 0 && (RateIn(lines[1..], floatOf, v) || RateIn([lines[0]], floatOf, v))
    ensures RateIn(lines, floatOf, v)
  {
    if RateIn(lines[1..], floatOf, v) {
      var i, t :| 0 <= i < |lines[1..]| && RateLine(lines[1..][i], floatOf, t) && !t.zero && t.text == v;
      assert RateLine(lines[i + 1], floatOf, t);
    } else {
      var i, t :| 0 <= i < 1 && RateLine([lines[0]][i], floatOf, t) && !t.zero && t.text == v;
      assert RateLine(lines[0], floatOf, t);
    }
  }

  lemma HeadSourced(p: Pending, lines: seq<string>, floatOf: FloatParser, row: string)
    requires |lines| > 0 && Sourced(p, [lines[0]], floatOf, row)
    ensures Sourced(p, lines, floatOf, row)
  {
    var n := Key(row).value;
    if CountIn([lines[0]], n) {
      CountInTail(lines, n);
    }
    if RateIn([lines[0]], floatOf, Value(row)) {
      RateInTail(lines, floatOf, Value(row));
    }
  }

  lemma TailSourced(p: Pending, q: Pending, lines: seq<string>, floatOf: FloatParser, row: string)
    requires |lines| > 0 && Sourced(q, lines[1..], floatOf, row)
    requires HasCount(q) ==> CountIn([lines[0]], q.nthr.value) || q.nthr == p.nthr
    requires HasRate(q) ==> RateIn([lines[0]], floatOf, q.triad.value.text) || q.triad == p.triad
    ensures Sourced(p, lines, floatOf, row)
  {
    var n := Key(row).value;
    if CountIn(lines[1..], n) || CountIn([lines[0]], n) {
      CountInTail(lines, n);
    }
    if RateIn(lines[1..], floatOf, Value(row)) || RateIn([lines[0]], floatOf, Value(row)) {
      RateInTail(lines, floatOf, Value(row));
    }
  }

  lemma {:induction false} ScanSources(p: Pending, lines: seq<string>, floatOf: FloatParser)
    ensures forall row :: row in Scan(p, lines, floatOf).rows ==> Sourced(p, lines, floatOf, row)
    decreases |lines|
  {
    if |lines| > 0 {
      var r := Step(p, lines[0], floatOf);
      if r.Next? {
        var q := r.pending;
        StepSources(p, lines[0], floatOf);
        ScanSources(q, lines[1..], floatOf);
        var rest := Scan(q, lines[1..], floatOf);
        assert Scan(p, lines, floatOf).rows == RowSeq(r.row) + rest.rows;
        forall row | row in Scan(p, lines, floatOf).rows
          ensures Sourced(p, lines, floatOf, row)
        {
          if row in rest.rows {
            TailSourced(p, q, lines, floatOf, row);
          } else {
            HeadSourced(p, lines, floatOf, row);
          }
        }
      }
    }
  }

  /** A row is a non-zero thread count read from some "Number" line of
      the input and, after the comma, the text of a non-zero rate read
      from some "Triad" line. */
  ghost predicate FromInput(lines: seq<string>, floatOf: FloatParser, row: string) {
    && Key(row).Some? && Key(row).value != 0
    && CountIn(lines, Key(row).value)
    && RateIn(lines, floatOf, Value(row))
  }

  lemma SourcedFromEmpty(lines: seq<string>, floatOf: FloatParser, row: string)
    requires Sourced(Empty, lines, floatOf, row)
    ensures FromInput(lines, floatOf, row)
  {
  }

  /** Every row printed after the header comes from the input. */
  lemma FilterSources(lines: seq<string>, floatOf: FloatParser)
    ensures forall row :: row in Filter(lines, floatOf).lines[1..] ==> FromInput(lines, floatOf, row)
  {
    ScanSources(Empty, lines, floatOf);
    var rows := Scan(Empty, lines, floatOf).rows;
    assert Filter(lines, floatOf).lines[1..] == rows;
    forall row | row in rows
      ensures FromInput(lines, floatOf, row)
    {
      SourcedFromEmpty(lines, floatOf, row);
    }
  }

  /** A "Number of Threads requested = n" line, split into fields. */
  function ThreadsFields(n: nat): seq<string> {
    ["Number", "of", "Threads", "requested", "=", Show(n)]
  }

  /** The column header line of the sample log, split into fields. */
  const ColumnFields := ["Function", "Best", "Rate", "MB/s", "Avg", "time", "Min", "time", "Max", "time"]

  /** A "Triad:" line, split into fields. */
  function TriadFields(rest: seq<string>): seq<string> {
    ["Triad:"] + rest
  }

  lemma ThreadsWords(n: nat)
    ensures AllWords(ThreadsFields(n))
    ensures forall k :: 0 <= k < |ThreadsFields(n)| ==> Lacks(ThreadsFields(n)[k], 'i')
  {
    var fs := ThreadsFields(n);
    forall k | 0 <= k < 5
      ensures IsWord(fs[k]) && Lacks(fs[k], 'i')
    {
    }
  }

  /** "Number of Threads requested = n" reads as the count `n` and does
      not mention "Triad". */
  lemma ThreadsLine(n: nat)
    ensures CountLine(Unwords(ThreadsFields(n)), n)
    ensures !Contains(Unwords(ThreadsFields(n)), "Triad")
  {
    var fs := ThreadsFields(n);
    ThreadsWords(n);
    WordsUnwords(fs);
    assert Contains(fs[0], "Number") by {
      assert StartsWith(fs[0], "Number");
    }
    UnwordsContains(fs, 0, "Number");
    UnwordsLacks(fs, 'i');
    MissingChar(Unwords(fs), "Triad", 2);
    ParseShow(n);
  }

  /** The column header line mentions no "Triad". */
  lemma ColumnLine()
    ensures !Contains(Unwords(ColumnFields), "Triad")
  {
    forall k | 0 <= k < |ColumnFields|
      ensures Lacks(ColumnFields[k], 'T')
    {
    }
    UnwordsLacks(ColumnFields, 'T');
    MissingChar(Unwords(ColumnFields), "Triad", 0);
  }

  /** A "Triad:" line reads as the rate in its second field. */
  lemma TriadLine(rest: seq<string>, floatOf: FloatParser, t: PyFloat)
    requires AllWords(rest) && |rest| > 0 && floatOf(rest[0]) == Some(t)
    ensures RateLine(Unwords(TriadFields(rest)), floatOf, t)
  {
    var fs := TriadFields(rest);
    assert IsWord(fs[0]);
    assert forall k :: 1 <= k < |fs| ==> fs[k] == rest[k - 1];
    WordsUnwords(fs);
    assert StartsWith(fs[0], "Triad");
    UnwordsContains(fs, 0, "Triad");
  }

  /** Two count/rate pairs, each with one quiet line between: two rows. */
  lemma TwoPairs(a1: string, c: string, b1: string, a2: string, b2: string, floatOf: FloatParser,
                 n1: int, t1: PyFloat, n2: int, t2: PyFloat)
    requires CountLine(a1, n1) && n1 != 0 && !Contains(a1, "Triad")
    requires CountLine(a2, n2) && n2 != 0 && !Contains(a2, "Triad")
    requires !Contains(c, "Triad")
    requires RateLine(b1, floatOf, t1) && !t1.zero
    requires RateLine(b2, floatOf, t2) && !t2.zero
    ensures Filter([a1, c, b1, a2, c, b2], floatOf) == Printed([Header, Row(n1, t1.text), Row(n2, t2.text)], None)
  {
    var second, all := [a2, c, b2], [a1, c, b1, a2, c, b2];
    PairPrints(a2, [c], b2, [], floatOf, n2, t2);
    TwoPairLines(a2, c, b2, a1, b1);
    assert Scan(Empty, second, floatOf) == Feed([Row(n2, t2.text)], None, Empty);
    PairPrints(a1, [c], b1, second, floatOf, n1, t1);
    assert Scan(Empty, all, floatOf) == Feed([Row(n1, t1.text), Row(n2, t2.text)], None, Empty);
  }

  lemma RateWords(rest: seq<string>)
    requires rest == ["22019.7519", "0.0022", "0.0022", "0.0022"]
          || rest == ["45241.9308", "0.0011", "0.0011", "0.0011"]
    ensures AllWords(rest)
  {
    forall k | 0 <= k < |rest|
      ensures IsWord(rest[k])
    {
      PrintableWord(rest[k]);
    }
  }

  lemma SmallRows()
    ensures Row(1, "22019.7519") == "1,22019.7519" && Row(2, "45241.9308") == "2,45241.9308"
  {
    assert Show(1) == "1" && Show(2) == "2";
  }

  /** The sample log in the script's header comment gives one row per
      thread count with its Triad rate, for any `float()` that reads the
      two rates as non-zero values printed as written. Each line is built
      from the comment line's fields joined by single spaces rather than
      its column padding; `Step` reads a line only through its fields and
      through `Contains` of the space-free words "Number" and "Triad", so
      the padding makes no difference. */
  lemma SampleLogRows(floatOf: FloatParser)
    requires floatOf("22019.7519") == Some(PyFloat(false, "22019.7519"))
    requires floatOf("45241.9308") == Some(PyFloat(false, "45241.9308"))
    ensures Filter([Unwords(ThreadsFields(1)), Unwords(ColumnFields),
                    Unwords(TriadFields(["22019.7519", "0.0022", "0.0022", "0.0022"])),
                    Unwords(ThreadsFields(2)), Unwords(ColumnFields),
                    Unwords(TriadFields(["45241.9308", "0.0011", "0.0011", "0.0011"]))], floatOf)
      == Printed(["Ncores,MB/sec", "1,22019.7519", "2,45241.9308"], None)
  {
    var rest1 := ["22019.7519", "0.0022", "0.0022", "0.0022"];
    var rest2 := ["45241.9308", "0.0011", "0.0011", "0.0011"];
    ThreadsLine(1);
    ThreadsLine(2);
    ColumnLine();
    RateWords(rest1);
    RateWords(rest2);
    TriadLine(rest1, floatOf, PyFloat(false, "22019.7519"));
    TriadLine(rest2, floatOf, PyFloat(false, "45241.9308"));
    TwoPairs(Unwords(ThreadsFields(1)), Unwords(ColumnFields), Unwords(TriadFields(rest1)),
             Unwords(ThreadsFields(2)), Unwords(TriadFields(rest2)), floatOf,
             1, PyFloat(false, "22019.7519"), 2, PyFloat(false, "45241.9308"));
    SmallRows();
  }
}

=== FILE: wrappers.dfy ===
/** Failure-compatible optional value, used for Python's `None` and for
    operations that may produce nothing. */
module Wrappers {

  datatype Option<+T> = None | Some(value: T) {

    /** Returns the value held in Some, or `default` when None. */
    function GetOr(default: T): T {
      match this
      case Some(v) => v
      case None => default
    }
  }
}
